=== FILE: README.md ===
# Interactive DMS service: dry run and batch update, in Dafny

The service lets a user search a document management system (DMS), preview a
change of one property on every object found (the *dry run*), and then write
the change object by object (the *batch update*). This project models the
three functions of `interactive_dms_service/dmsapi.py` that carry that logic:

- the request body `call_search` builds (module `Search`);
- `call_dryrun`, which fetches each referenced object, classifies it and
  prepares one update payload per object that has the field (module `DryRun`);
- `call_update`, which posts each payload, records one result per payload
  and summarises the batch (module `Update`).

Module `Pipeline` connects the dry run to the update. Module `PyJson` holds
decoded JSON and the few Python operations the code applies to it:
truthiness, `dict.get`, `in` on a string, `str()` and slicing. Module
`Backend` holds the outcome of one HTTP call.

The backend is a parameter. `fetch(objectId)` is what the GET of one object
ends in, and `post(body)` is what the POST of one update body ends in. Each
ends in a response (status, text, decoded body or a decoding failure), a
timeout, or a transport failure. `raise_for_status` raises for statuses 400
to 599. Each run returns the call log beside the response: the identifiers
fetched, or the bodies posted, in call order. That is how "nothing was
fetched" and "nothing was sent" are stated.

Every Python exception path is decided by the model:

- In the dry run, a reference that is not a dict, or whose identifiers are
  falsy, is skipped without a fetch.
- Every exception the dry-run loop catches leaves no trace in the result.
  That covers HTTP, timeout, transport and decoding failures, and the
  `KeyError`/`AttributeError`/`TypeError` of a body of unexpected shape.
- In the update, a payload whose object id cannot be read raises an
  `AttributeError` that no handler catches. This is modelled as the outcome
  `Raised(index)`.

Each loop is modelled twice:

- as a fold over the list (`DryRun.ScanRefs`, `Update.RunBatch`), which the
  lemmas are about. `Update.RunBatch` is `Update.Fold` applied to what each
  iteration does on its own (`Update.Attempts`), so the facts about stopping
  and recording are proved once, independently of the payloads;
- as an imperative loop (`DryRun.CallDryrunLoop`, `Update.CallUpdateLoop`),
  proved equal to the fold.

Where the code of `dmsapi.py` differs from its docstrings, the model follows
the code; the other points listed here are behaviour of the code worth
stating:

- The docstring of `call_dryrun` (lines 122-123) says each reference holds
  `system:objectId` and `system:objectTypeId`. The code (lines 154-155)
  reads `objectId` and `objectTypeId`.
- The same docstring (lines 128-129) names the result keys `dryrun_items`
  and `payload_items`. The code (lines 252-255) returns `result_dryrun` and
  `result_payloads`.
- The docstring of `call_update` (lines 266-267) says its payloads are the
  ones `call_dryrun` prepares. Passed as they are, every one of them is
  recorded as failed without a call (lines 315-325; see Findings).
- `call_update` can raise. The `.get` chain at line 312 raises
  `AttributeError` on a payload that is not a dict, or whose "properties" or
  "system:objectId" entry is not a dict, and no handler at lines 365-408
  catches it.
- The `"0%"` branch at line 415 is never taken. An empty payload list
  returns at line 276, before the summary is built, with a summary that has
  no rate. So every summary that has a rate has a non-empty total.
- The failure texts are the code's own, including the spelling "enpoint" at
  line 178.

## Model

| member | source | states |
|---|---|---|
| PyJson.Truncate | interactive_dms_service/dmsapi.py:366 | the truncated response text is a prefix of the text, exactly 200 characters long when the text is longer, and the whole text otherwise |
| PyJson.NatToStringRoundTrip | interactive_dms_service/dmsapi.py:316 | reading back the decimal rendering of an index or status code gives the number |
| PyJson.NatToStringInjective | interactive_dms_service/dmsapi.py:316 | two different numbers never render to the same text; the message lemmas below use it to show that a message names exactly one index or status |
| Search.Statement | interactive_dms_service/dmsapi.py:49 | the statement starts with "SELECT ", ends with the condition, and is the three parts plus twenty fixed characters long |
| Search.SearchPayload | interactive_dms_service/dmsapi.py:47-54 | the search body has exactly one key, "query", holding exactly statement, skipCount, maxItems and handleDeletedDocuments |
| Search.StatementRoundTrip | interactive_dms_service/dmsapi.py:49 | when field selector and folder hold no blank, parsing the statement back gives the three caller strings, whatever the condition holds |
| Search.StatementNotInjective | interactive_dms_service/dmsapi.py:49 | nothing is escaped: a folder that contains " WHERE " gives the same statement as a different query |
| Search.SearchPayloadContents | interactive_dms_service/dmsapi.py:47-54 | a search asks for one page of ten items from offset 0, excludes deleted documents, and sends a statement that reads back as the query |
| DryRun.RefIds | interactive_dms_service/dmsapi.py:154-163 | a reference yields identifiers exactly when it is a dict whose objectId and objectTypeId entries are both present and truthy, and then they are those two entries |
| DryRun.InspectObject | interactive_dms_service/dmsapi.py:191-206 | on the first object: with dict properties, the field is missing exactly when it is not a key and found exactly when its entry is a dict, with that entry's "value" or ""; with list or str properties the field is never found; anything else raises and is dropped |
| DryRun.InspectBody | interactive_dms_service/dmsapi.py:176-191 | a dict body whose "objects" is missing or falsy is "no valid object", and only such a body; a truthy list defers to its first object; any other body raises and is dropped |
| DryRun.InspectFetch | interactive_dms_service/dmsapi.py:167-246 | a GET that times out, fails in transport, answers 400-599 or sends a body that does not decode is dropped; otherwise the decoded body decides |
| DryRun.DictBodyInspected | interactive_dms_service/dmsapi.py:173-206 | for a decoded dict body: "no valid object" exactly when "objects" is falsy; found exactly when the first object's properties are a dict holding the field as a dict, with its "value" or ""; missing exactly when such properties lack the field |
| DryRun.PayloadProperties | interactive_dms_service/dmsapi.py:220-228 | the properties hold exactly the two system keys and the field, the field wrapped as {"value": new value}, and a field named like a system key replaces that key |
| DryRun.PayloadsFor | interactive_dms_service/dmsapi.py:219-229 | one payload per go item, in order, each built from that item |
| DryRun.RefScan | interactive_dms_service/dmsapi.py:153-246 | one reference adds at most one fetch, at most one item, and a payload exactly when its item is a go item (the payload of that item); it is fetched exactly when its identifiers are well formed |
| DryRun.ScanRefs | interactive_dms_service/dmsapi.py:152-246 | the loop never produces more payloads than items, more items than fetches, or more fetches than references |
| DryRun.ScanShape | interactive_dms_service/dmsapi.py:176-229 | every item names the field; an ok item is exactly a "Go" item and carries the new value; a failed item has empty current and new values; the payloads are those of the ok items, in order |
| DryRun.ScanAppend | interactive_dms_service/dmsapi.py:152-246 | the loop is a fold: scanning two lists one after the other is scanning each on its own and joining the results |
| DryRun.CallDryrun | interactive_dms_service/dmsapi.py:114-255 | an empty reference list and an invalid field name are rejected with their messages before any fetch; otherwise the run completes, with the loop's bounds and item shapes |
| DryRun.Detail.Text | interactive_dms_service/dmsapi.py:178-193 | "Go" exactly for a go item; a failure text starts with "Object <id>: " and continues with "No valid object returned from DMS enpoint." or with "Field '<field>' does not exist" |
| DryRun.DetailTextMark | interactive_dms_service/dmsapi.py:178-193 | the character right after "Object <id>: " is 'N' for a missing object and 'F' for a missing field |
| DryRun.DetailTextInjective | interactive_dms_service/dmsapi.py:178-193 | for the same object and field, the three details texts are pairwise different, so a returned item tells which outcome it records |
| DryRun.ItemJson | interactive_dms_service/dmsapi.py:180-217 | a preview item is a dict with exactly the seven keys; its status is "1" exactly for a go item and "0" exactly for a failure; details is "Go" exactly for a go item and is otherwise the failure's own text for the item's object and field; the identifiers, field and values are the item's |
| DryRun.ResponseJson | interactive_dms_service/dmsapi.py:252-255 | a completed run returns exactly result_dryrun, the items as dicts in order, and result_payloads, the payloads; a rejected one returns exactly error, preview and payloads, the last two empty |
| DryRun.MalformedRefSkipped | interactive_dms_service/dmsapi.py:154-163 | a reference without usable identifiers changes nothing: the run is the run without it |
| DryRun.FailedFetchSkipped | interactive_dms_service/dmsapi.py:232-246 | a fetch that is dropped, whether the call fails or reading the body raises, is spent and logged, no item or payload appears, and the later references are processed as if it were absent |
| DryRun.FailedItemRecorded | interactive_dms_service/dmsapi.py:176-204 | an object list that is empty, or an object without the field, adds one failed item with the matching detail in place and no payload |
| DryRun.GoItemRecorded | interactive_dms_service/dmsapi.py:206-229 | an object with the field adds one go item with its current value and the new value, and its payload, in place |
| DryRun.FetchesExactlyWellFormed | interactive_dms_service/dmsapi.py:152-167 | the GETs go out, in order, for the objectId of exactly the references that are dicts with truthy objectId and objectTypeId entries |
| DryRun.PayloadsMatchGoItems | interactive_dms_service/dmsapi.py:206-229 | the k-th payload belongs to the k-th go item of the preview, and there is one per go item |
| DryRun.VisitRef | interactive_dms_service/dmsapi.py:153-246 | one iteration of the loop appends exactly what the reference contributes on its own |
| DryRun.CallDryrunLoop | interactive_dms_service/dmsapi.py:134-255 | the loop with its appends computes the same run, fetch log included, as the fold |
| Update.LoggedObjectId | interactive_dms_service/dmsapi.py:312 | the id read for logging exists only for a dict payload, and is "unknown" for a payload without "properties" |
| Update.LoggedObjectIdCases | interactive_dms_service/dmsapi.py:312 | reading the id raises exactly when the payload, a present "properties" entry, or a present "system:objectId" entry inside it is not a dict; otherwise the id is that entry's "value", or "unknown" when a level or the value is missing |
| Update.MissingPropertiesMessageParts | interactive_dms_service/dmsapi.py:316 | the message is "Invalid payload structure at index ", the decimal index, then ": missing 'properties'", and its digits read back as the index |
| Update.MissingPropertiesMessageInjective | interactive_dms_service/dmsapi.py:316 | two indices never give the same missing-properties message |
| Update.HttpErrorMessageParts | interactive_dms_service/dmsapi.py:366 | the message is "HTTP error ", the decimal status, ": ", then the first 200 characters of the response text, and its digits read back as the status |
| Update.HttpErrorDigitsNotShorter | interactive_dms_service/dmsapi.py:366 | in two equal HTTP error messages the status digits have the same extent, since a ':' follows them |
| Update.HttpErrorMessageInjective | interactive_dms_service/dmsapi.py:366 | the HTTP error message determines the status and the truncated text |
| Update.PostResult | interactive_dms_service/dmsapi.py:334-408 | a POST succeeds exactly when it answers a status outside 400-599 with a decodable body, and then records that status and body; a status code is recorded exactly when the status raised, with the HTTP error message of that status and text (see `HttpErrorMessageParts`); a timeout and a transport or decoding failure record their messages without a status |
| Update.AttemptAt | interactive_dms_service/dmsapi.py:310-341 | a payload raises exactly when its id cannot be read; it is posted, wrapped as {"objects": [payload]}, exactly when it has "properties", and then its result is the outcome of that one POST; otherwise it is recorded as failed with the missing-properties message |
| Update.Fold | interactive_dms_service/dmsapi.py:309-408 | given what each iteration does, a batch that did not raise has one result per iteration; a raise is recorded at the index of the first iteration that raised, after exactly that many results; the two counters add up to the results; at most one body is sent per result |
| Update.FoldResults | interactive_dms_service/dmsapi.py:309-408 | every recorded result is the result of the iteration at its own index, and that iteration did not raise |
| Update.FoldCounts | interactive_dms_service/dmsapi.py:304-354 | the success counter equals the number of successful results |
| Update.FoldRaisedIsFinal | interactive_dms_service/dmsapi.py:309-312 | once a prefix of the iterations raised, later iterations do not change the outcome |
| Update.BatchFacts | interactive_dms_service/dmsapi.py:309-312 | over the payloads, each result carries its own index and belongs to a payload whose id can be read, a raise is at a payload whose id cannot, and the success counter counts the successes |
| Update.RunBatch | interactive_dms_service/dmsapi.py:303-408 | results are indexed by position, the counters add up to the results and count the successes, at most one body is sent per result, and a raise stops the batch at the first unreadable payload |
| Update.CallUpdate | interactive_dms_service/dmsapi.py:258-426 | an empty or non-list input is rejected with a zero summary and no call; a completed batch has one result per payload and a summary whose counts and rate agree with the results; it raises only at a payload whose id cannot be read, and never when every id can be read |
| Update.BatchStep | interactive_dms_service/dmsapi.py:309-408 | one more payload adds exactly one iteration: nothing after an earlier raise, otherwise the raise or the recorded attempt of that payload |
| Update.CompletedBatch | interactive_dms_service/dmsapi.py:309-312 | when every payload's id can be read, the batch completes and reports the fold's results and call log |
| Update.RaisedIsFinal | interactive_dms_service/dmsapi.py:309-312 | once a prefix of the payloads raises, no later payload changes the outcome |
| Update.ResultsIndependent | interactive_dms_service/dmsapi.py:309-408 | the k-th result depends only on k, the k-th payload and the backend, not on earlier payloads |
| Update.ReplacingOnePayload | interactive_dms_service/dmsapi.py:309-408 | replacing one readable payload by another leaves every other result unchanged |
| Update.MissingPropertiesRecorded | interactive_dms_service/dmsapi.py:315-325 | a payload without "properties" is recorded as failed, object id "unknown", with the missing-properties message of its own index (which names that index, by `MissingPropertiesMessageParts`) |
| Update.SentExactlyPosted | interactive_dms_service/dmsapi.py:327-341 | a completed batch posts exactly the wrapped payloads that have "properties", in order |
| Update.VisitPayload | interactive_dms_service/dmsapi.py:310-408 | one iteration raises exactly when the payload's id cannot be read, and otherwise records exactly that payload's attempt |
| Update.CallUpdateLoop | interactive_dms_service/dmsapi.py:276-426 | the loop with its counters computes the same run, call log included, as the fold |
| Pipeline.PayloadForPrepared | interactive_dms_service/dmsapi.py:220-228 | every payload the dry run prepares is a dict with the single key "objects", a one-element list whose object has the single key "properties" |
| Pipeline.DryRunPayloadsPrepared | interactive_dms_service/dmsapi.py:219-229 | every payload of a completed dry run has that prepared shape |
| Pipeline.NothingPostedWithoutProperties | interactive_dms_service/dmsapi.py:315-328 | payloads without top-level "properties" are never posted |
| Pipeline.WithoutPropertiesAllRejected | interactive_dms_service/dmsapi.py:312-325 | a non-empty batch of dict payloads none of which has a top-level "properties" completes with every result failed for missing "properties", success count 0, and no call made |
| Pipeline.DryRunPayloadsNeverSent | interactive_dms_service/dmsapi.py:315-328 | the payloads of a dry run, passed to the update as they are, are never sent and none succeeds |
| Pipeline.UnwrapRoundTrip | interactive_dms_service/dmsapi.py:328 | wrapping the unwrapped object again gives back the prepared payload, and the unwrapped object has a readable id and "properties" |
| Pipeline.UnwrappedPostedAsPrepared | interactive_dms_service/dmsapi.py:327-328 | once unwrapped, the prepared payloads are posted as exactly the bodies the dry run prepared |
| Pipeline.CommitPrepared | interactive_dms_service/dmsapi.py:309-408 | committing prepared payloads completes, posts each prepared body once in order, and records each result as that body's own POST outcome |
| Pipeline.CorrectedPayloadsSentAsPrepared | interactive_dms_service/dmsapi.py:219-229 | with unwrapping, a completed dry run's payloads are sent exactly as prepared, one result each |
| Pipeline.InvoiceDryRun | interactive_dms_service/dmsapi.py:152-229 | two invoices, of which only the first has "zahl1", set to "42": both are fetched, the preview is one go item and one field-missing item, and one payload is prepared |
| Pipeline.CommitAllAccepted | interactive_dms_service/dmsapi.py:349-416 | prepared payloads committed to a backend that accepts everything are each posted once, in order, and all count: n of n successful, none failed |
| Pipeline.CommitOneAccepted | interactive_dms_service/dmsapi.py:349-361 | one prepared payload, committed to a backend that accepts it, gives one success and a 1-of-1 summary |
| Pipeline.InvoiceUpdate | interactive_dms_service/dmsapi.py:309-416 | that one payload, as written, gives the summary 1 total, 0 successful, 1 failed and no call; committed after unwrapping it gives 1, 1, 0 |

## Left out

- HTTP itself is not modelled: URLs, headers, proxies, timeouts, the query parameter `minimalResponse`, and the configuration read from the Flask application. The backend appears only as the outcome of each call.
- Logging is not modelled. The id computed for logging is modelled because an exception in computing it decides the outcome.
- `call_search` is modelled only as the request body it builds. The HTTP call, its error handling and the decoding of the answer are not modelled.
- `call_info`, `call_schema` and `call_objectschema` are plain fetch-and-return calls with no logic of their own, and are not modelled.
- The Flask routes, forms, configuration, package initialisation and the demo applications are not modelled. The route module calls `call_search` with two arguments where three are required; that module is not part of this model.
- `dmsapi.py` has no projection of search results and no session store of results. No module of the repository stores search results or payloads between requests: the search route (`interactive_dms_service/routes.py`, lines 65-69) renders the answer of `call_search` directly.
- The backend is a function of the request body (`fetch(objectId)`, `post(body)`): the same body always gets the same answer. A backend whose answer depends on earlier calls, such as one that rejects a second update of the same object, is not modelled; the lemmas that compare results across payloads hold given the backend's answer to each call.
- Update.CallUpdate: the success rate is kept as the pair (successful, total). The text rendering with one decimal place is float formatting and is not modelled.
- PyJson.PyStr: `str()` of a list or dict identifier renders as a fixed marker, not as Python's representation. It appears only inside error messages.
- JSON numbers are integers. Floats in a decoded body are not modelled.
- A search-result argument that is truthy but not a list is not modelled: the dry run takes a sequence of references.
- A body that does not decode as JSON is treated as requests 2.27 and later treat it. The decoding error is a `RequestException`, so the update records "Request error: …". The `ValueError` handler at line 399 is then never reached, and it is not modelled.
- The texts of the exceptions that requests raises are parameters (`TransportFailure(reason)`, `Unparsable(reason)`), not reproduced.

## Findings

| source | as written | input that shows it | evidently intended | confidence | as-written member | corrected member |
|---|---|---|---|---|---|---|
| interactive_dms_service/dmsapi.py:220-228, 315-328 | `call_dryrun` prepares each payload as {"objects": [{"properties": …}]}; `call_update` requires "properties" at the top level of each payload and wraps it in "objects" itself | any completed dry run with at least one go item, e.g. two invoices of which one has "zahl1", its one payload passed to `call_update` | the prepared object is posted once, as {"objects": [{"properties": …}]}, and counts as a success when the backend accepts it | high, not executed | Pipeline.DryRunPayloadsNeverSent | Pipeline.CorrectedPayloadsSentAsPrepared |

=== FILE: backend.dfy ===
/** The document-management backend as seen from one HTTP call. The calls
    themselves are parameters of the operations (`fetch`, `post`); this module
    only fixes what a call can end in and how `requests` classifies it. */
module Backend {
  import opened PyJson

  /** The result of `response.json()` on a received response. */
  datatype Body = Parsed(json: Json) | Unparsable(reason: string)

  /** How one `requests.get`/`requests.post` ends. */
  datatype HttpOutcome =
    | Response(status: nat, text: string, body: Body)
    | TimedOut
    | TransportFailure(reason: string)

  /** `response.raise_for_status()` raises exactly for 4xx and 5xx codes. */
  predicate RaisesForStatus(status: nat) {
    400 <= status < 600
  }

  /** A response whose status does not raise and whose body decodes as JSON:
      the only outcome whose body either operation goes on to read. */
  predicate Decoded(outcome: HttpOutcome) {
    outcome.Response? && !RaisesForStatus(outcome.status) && outcome.body.Parsed?
  }
}

=== FILE: dryrun.dfy ===
/** The dry run of `call_dryrun`: for each stored object reference, fetch the
    object, compare the target field's current value with the proposed one,
    and prepare an update payload. Nothing is written to the backend. */
module DryRun {
  import opened PyJson
  import opened Backend

  /** The "status" of a preview item: "1" for go, "0" for a recorded failure. */
  datatype Status = Ok | Failed {
    function Code(): string {
      if Ok? then "1" else "0"
    }
  }

  /** Which message the "details" entry of a preview item carries. */
  datatype Detail = NoValidObject | FieldDoesNotExist | Go {
    /** Lines 178 and 193: a failure names the object and then says what
        failed; a field that does not exist is named in quotes. */
    function Text(objectId: Json, field: string): (t: string)
      ensures this == Go <==> t == "Go"
      ensures this != Go ==> "Object " + PyStr(objectId) + ": " <= t
      ensures this == NoValidObject ==> t[|PyStr(objectId)| + 9..] == "No valid object returned from DMS enpoint."
      ensures this == FieldDoesNotExist ==> t[|PyStr(objectId)| + 9..] == "Field '" + field + "' does not exist"
    {
      var prefix := "Object " + PyStr(objectId) + ": ";
      match this
      case NoValidObject =>
        var t := prefix + "No valid object returned from DMS enpoint.";
        assert t[|prefix|..] == "No valid object returned from DMS enpoint.";
        t
      case FieldDoesNotExist =>
        var t := prefix + "Field '" + field + "' does not exist";
        assert t[|prefix|..] == "Field '" + field + "' does not exist";
        t
      case Go => "Go"
    }
  }

  /** The "details" texts tell the three outcomes apart for the same object
      and field. */
  lemma DetailTextInjective(d1: Detail, d2: Detail, objectId: Json, field: string)
    requires d1.Text(objectId, field) == d2.Text(objectId, field)
    ensures d1 == d2
  {
    if d1 != Go && d2 != Go {
      DetailTextMark(d1, objectId, field);
      DetailTextMark(d2, objectId, field);
    }
  }

  /** The first character after "Object <id>: " marks the failure kind. */
  lemma DetailTextMark(d: Detail, objectId: Json, field: string)
    requires d != Go
    ensures var t := d.Text(objectId, field);
            |PyStr(objectId)| + 9 < |t| && t[|PyStr(objectId)| + 9] == if d == NoValidObject then 'N' else 'F'
  {
    var t := d.Text(objectId, field);
    var at := |PyStr(objectId)| + 9;
    assert t[at] == t[at..][0];
  }

  datatype PreviewItem = PreviewItem(
    objectId: Json,
    objectTypeId: Json,
    status: Status,
    detail: Detail,
    field: string,
    currentValue: Json,
    newValue: Json)

  /** A stored reference the loop fetches: a dict whose "objectId" and
      "objectTypeId" entries are both present and truthy. */
  predicate WellFormedRef(r: Json) {
    && r.Obj? && "objectId" in r.fields && "objectTypeId" in r.fields
    && Truthy(r.fields["objectId"]) && Truthy(r.fields["objectTypeId"])
  }

  /** The two identifiers of a stored reference, or None when the loop skips
      the reference before fetching anything: it is not a dict (the `.get`
      raises and the handler swallows it), or either identifier is missing or
      falsy. */
  function RefIds(r: Json): (ids: Option<(Json, Json)>)
    ensures ids.Some? <==> WellFormedRef(r)
    ensures ids.Some? ==> ids.value == (r.fields["objectId"], r.fields["objectTypeId"])
  {
    match r
    case Obj(m) =>
      var id := Get(m, "objectId", Null);
      var typeId := Get(m, "objectTypeId", Null);
      if Truthy(id) && Truthy(typeId) then Some((id, typeId)) else None
    case _ => None
  }

  /** What one fetch tells about the target field. `Dropped` is every path on
      which an exception is raised and swallowed: nothing is recorded. */
  datatype Inspection = Dropped | NoObject | NoField | Found(current: Json)

  /** `.get("properties", {})` on an object. */
  function PropertiesOf(m: map<string, Json>): Json {
    Get(m, "properties", Obj(map[]))
  }

  /** `.get("objects", [])` on a response body. */
  function ObjectsOf(m: map<string, Json>): Json {
    Get(m, "objects", Arr([]))
  }

  /** Lines 191-206 on the first element of the "objects" list. */
  function InspectObject(field: string, first: Json): (i: Inspection)
    ensures i != NoObject
    ensures !first.Obj? ==> i == Dropped
    ensures first.Obj? && PropertiesOf(first.fields).Obj? ==>
              var pm := PropertiesOf(first.fields).fields;
              && (i == NoField <==> field !in pm)
              && (i.Found? <==> field in pm && pm[field].Obj?)
              && (i.Found? ==> i.current == Get(pm[field].fields, "value", Str("")))
    ensures first.Obj? && PropertiesOf(first.fields).Arr? ==>
              (i == NoField <==> Str(field) !in PropertiesOf(first.fields).items) && !i.Found?
    ensures first.Obj? && PropertiesOf(first.fields).Str? ==>
              (i == NoField <==> !IsSubstring(field, PropertiesOf(first.fields).s)) && !i.Found?
    ensures first.Obj? && !(PropertiesOf(first.fields).Obj? || PropertiesOf(first.fields).Arr? || PropertiesOf(first.fields).Str?) ==>
              i == Dropped
  {
    match first
    case Obj(m) =>
      var props := PropertiesOf(m);
      (match props
       case Obj(pm) =>
         if field !in pm then NoField
         else (match pm[field]
               case Obj(vm) => Found(Get(vm, "value", Str("")))
               case _ => Dropped)
       // `in` on a list or a str succeeds, but the `.get` that follows raises
       case Arr(xs) => if Str(field) !in xs then NoField else Dropped
       case Str(s) => if !IsSubstring(field, s) then NoField else Dropped
       // `in` on None, a bool or a number raises TypeError
       case _ => Dropped)
    case _ => Dropped
  }

  /** Lines 176-206 on a decoded response body. */
  function InspectBody(field: string, body: Json): (i: Inspection)
    ensures !body.Obj? ==> i == Dropped
    ensures body.Obj? ==> (i == NoObject <==> !Truthy(ObjectsOf(body.fields)))
    ensures body.Obj? && Truthy(ObjectsOf(body.fields)) ==>
              i == if ObjectsOf(body.fields).Arr? then InspectObject(field, ObjectsOf(body.fields).items[0]) else Dropped
  {
    match body
    case Obj(m) =>
      var objects := ObjectsOf(m);
      if !Truthy(objects) then NoObject
      else (match objects
            case Arr(xs) => InspectObject(field, xs[0])
            // a dict has no key 0 and a number or bool cannot be indexed; a
            // str yields its first character, whose `.get` raises
            case _ => Dropped)
    case _ => Dropped
  }

  /** Lines 167-206: one fetch, classified. HTTP, timeout, transport and
      decoding failures are all swallowed. */
  function InspectFetch(field: string, outcome: HttpOutcome): (i: Inspection)
    ensures !Decoded(outcome) ==> i == Dropped
    ensures Decoded(outcome) ==> i == InspectBody(field, outcome.body.json)
  {
    match outcome
    case Response(status, _, body) =>
      if RaisesForStatus(status) then Dropped
      else (match body
            case Parsed(j) => InspectBody(field, j)
            case Unparsable(_) => Dropped)
    case _ => Dropped
  }

  /** The "properties" of a prepared payload. A field named like one of the
      system keys overwrites that key, as a later duplicate key in a Python dict
      display does. */
  function PayloadProperties(objectId: Json, objectTypeId: Json, field: string, newValue: Json): (props: map<string, Json>)
    ensures props.Keys == {"system:objectId", "system:objectTypeId", field}
    ensures props[field] == Wrapped(newValue)
    ensures field != "system:objectId" ==> props["system:objectId"] == Wrapped(objectId)
    ensures field != "system:objectTypeId" ==> props["system:objectTypeId"] == Wrapped(objectTypeId)
  {
    map["system:objectId" := Wrapped(objectId)]
      ["system:objectTypeId" := Wrapped(objectTypeId)]
      [field := Wrapped(newValue)]
  }

  /** Lines 220-228: the payload is wrapped in an "objects" list of one. */
  function PreparedPayload(objectId: Json, objectTypeId: Json, field: string, newValue: Json): Json {
    Obj(map["objects" := Arr([Obj(map["properties" := Obj(PayloadProperties(objectId, objectTypeId, field, newValue))])])])
  }

  /** The payload that belongs to a go item. */
  function PayloadFor(item: PreviewItem): Json {
    PreparedPayload(item.objectId, item.objectTypeId, item.field, item.newValue)
  }

  /** The go items of a preview, in order. */
  function OkItems(items: seq<PreviewItem>): seq<PreviewItem>
    decreases |items|
  {
    if items == [] then []
    else
      var last := items[|items| - 1];
      OkItems(items[..|items| - 1]) + (if last.status == Ok then [last] else [])
  }

  function PayloadsFor(items: seq<PreviewItem>): (ps: seq<Json>)
    ensures |ps| == |items|
    ensures forall k :: 0 <= k < |items| ==> ps[k] == PayloadFor(items[k])
    decreases |items|
  {
    if items == [] then [] else PayloadsFor(items[..|items| - 1]) + [PayloadFor(items[|items| - 1])]
  }

  /** How every preview item of a dry run for `field`/`newValue` looks: a go
      item carries the proposed value, a failure carries empty values. */
  predicate ItemShape(item: PreviewItem, field: string, newValue: Json) {
    && item.field == field
    && Truthy(item.objectId) && Truthy(item.objectTypeId)
    && (item.status == Ok <==> item.detail == Go)
    && (item.status == Ok ==> item.newValue == newValue)
    && (item.status == Failed ==> item.currentValue == Str("") && item.newValue == Str(""))
  }

  /** The accumulated lists of the loop, and the identifiers fetched so far. */
  datatype Scan = Scan(preview: seq<PreviewItem>, payloads: seq<Json>, fetched: seq<Json>)

  const NoScan := Scan([], [], [])

  function Join(a: Scan, b: Scan): Scan {
    Scan(a.preview + b.preview, a.payloads + b.payloads, a.fetched + b.fetched)
  }

  /** What one reference adds on its own: at most one fetch, at most one item,
      and a payload exactly beside a go item. */
  function RefScan(r: Json, field: string, newValue: Json, fetch: Json -> HttpOutcome): (s: Scan)
    ensures |s.payloads| <= |s.preview| <= |s.fetched| <= 1
    ensures RefIds(r).None? <==> s.fetched == []
    ensures s.payloads == if |s.preview| == 1 && s.preview[0].status == Ok then [PayloadFor(s.preview[0])] else []
    ensures forall k :: 0 <= k < |s.preview| ==> ItemShape(s.preview[k], field, newValue)
  {
    match RefIds(r)
    case None => NoScan
    case Some((id, typeId)) =>
      match InspectFetch(field, fetch(id))
      case Dropped => Scan([], [], [id])
      case NoObject => Scan([PreviewItem(id, typeId, Failed, NoValidObject, field, Str(""), Str(""))], [], [id])
      case NoField => Scan([PreviewItem(id, typeId, Failed, FieldDoesNotExist, field, Str(""), Str(""))], [], [id])
      case Found(current) =>
        var item := PreviewItem(id, typeId, Ok, Go, field, current, newValue);
        Scan([item], [PayloadFor(item)], [id])
  }

  /** The loop of lines 152-246 over the references, in order. */
  function ScanRefs(refs: seq<Json>, field: string, newValue: Json, fetch: Json -> HttpOutcome): (s: Scan)
    ensures |s.payloads| <= |s.preview| <= |s.fetched| <= |refs|
    decreases |refs|
  {
    if refs == [] then NoScan
    else Join(ScanRefs(refs[..|refs| - 1], field, newValue, fetch), RefScan(refs[|refs| - 1], field, newValue, fetch))
  }

  /** Scanning one more reference appends what that reference contributes. */
  lemma ScanStep(refs: seq<Json>, i: nat, field: string, newValue: Json, fetch: Json -> HttpOutcome)
    requires i < |refs|
    ensures ScanRefs(refs[..i + 1], field, newValue, fetch)
         == Join(ScanRefs(refs[..i], field, newValue, fetch), RefScan(refs[i], field, newValue, fetch))
  {
    assert refs[..i + 1][..i] == refs[..i];
  }

  /** Every item of a scan has the dry run's shape, and its payloads are
      exactly the payloads of its go items, in order. */
  lemma {:induction false} ScanShape(refs: seq<Json>, field: string, newValue: Json, fetch: Json -> HttpOutcome)
    ensures var s := ScanRefs(refs, field, newValue, fetch);
            && s.payloads == PayloadsFor(OkItems(s.preview))
            && forall k :: 0 <= k < |s.preview| ==> ItemShape(s.preview[k], field, newValue)
    decreases |refs|
  {
    if refs != [] {
      var prior := ScanRefs(refs[..|refs| - 1], field, newValue, fetch);
      var step := RefScan(refs[|refs| - 1], field, newValue, fetch);
      ScanShape(refs[..|refs| - 1], field, newValue, fetch);
      OkItemsAppend(prior.preview, step.preview);
      PayloadsForAppend(OkItems(prior.preview), OkItems(step.preview));
      var s := Join(prior, step);
      forall k | 0 <= k < |s.preview|
        ensures ItemShape(s.preview[k], field, newValue)
      {
        if k < |prior.preview| {
          assert s.preview[k] == prior.preview[k];
        } else {
          assert s.preview[k] == step.preview[k - |prior.preview|];
        }
      }
    }
  }

  lemma {:induction false} OkItemsAppend(a: seq<PreviewItem>, b: seq<PreviewItem>)
    ensures OkItems(a + b) == OkItems(a) + OkItems(b)
    decreases |b|
  {
    if b != [] {
      var b' := b[..|b| - 1];
      assert (a + b)[..|a + b| - 1] == a + b';
      OkItemsAppend(a, b');
    } else {
      assert a + b == a;
    }
  }

  lemma {:induction false} PayloadsForAppend(a: seq<PreviewItem>, b: seq<PreviewItem>)
    ensures PayloadsFor(a + b) == PayloadsFor(a) + PayloadsFor(b)
    decreases |b|
  {
    if b != [] {
      var b' := b[..|b| - 1];
      assert (a + b)[..|a + b| - 1] == a + b';
      PayloadsForAppend(a, b');
    } else {
      assert a + b == a;
    }
  }

  /** A field name the dry run accepts: a non-empty `str`. */
  predicate ValidFieldName(fieldName: Json) {
    fieldName.Str? && |fieldName.s| > 0
  }

  /** The two shapes `call_dryrun` returns. */
  datatype DryRunResponse =
    | DryRunError(error: string)
    | DryRunDone(preview: seq<PreviewItem>, payloads: seq<Json>)

  /** A dry run's response, with the identifiers it fetched in call order. */
  datatype DryRunRun = DryRunRun(response: DryRunResponse, fetched: seq<Json>)

  /** `call_dryrun(search_results, field_name, new_value)` against a backend
      whose GET of one object ends in `fetch(objectId)`. */
  function CallDryrun(refs: seq<Json>, fieldName: Json, newValue: Json, fetch: Json -> HttpOutcome): (run: DryRunRun)
    ensures refs == [] ==> run == DryRunRun(DryRunError("No search results provided"), [])
    ensures refs != [] && !ValidFieldName(fieldName) ==> run == DryRunRun(DryRunError("Invalid field name"), [])
    ensures run.response.DryRunDone? <==> refs != [] && ValidFieldName(fieldName)
    ensures run.response.DryRunDone? ==>
              && |run.response.payloads| <= |run.response.preview| <= |run.fetched| <= |refs|
              && forall k :: 0 <= k < |run.response.preview| ==> ItemShape(run.response.preview[k], fieldName.s, newValue)
  {
    if refs == [] then DryRunRun(DryRunError("No search results provided"), [])
    else if !ValidFieldName(fieldName) then DryRunRun(DryRunError("Invalid field name"), [])
    else
      var s := ScanRefs(refs, fieldName.s, newValue, fetch);
      ScanShape(refs, fieldName.s, newValue, fetch);
      DryRunRun(DryRunDone(s.preview, s.payloads), s.fetched)
  }

  /** A preview item as the dict the source appends. */
  function ItemJson(item: PreviewItem): (j: Json)
    ensures j.Obj?
    ensures j.fields.Keys == {"object_id", "object_type_id", "status", "details", "field", "current_value", "new_value"}
    ensures j.fields["status"] == Str("1") <==> item.status == Ok
    ensures j.fields["status"] == Str("0") <==> item.status == Failed
    ensures j.fields["details"] == Str("Go") <==> item.detail == Go
    ensures j.fields["details"] == Str(item.detail.Text(item.objectId, item.field))
    ensures && j.fields["object_id"] == item.objectId && j.fields["object_type_id"] == item.objectTypeId
            && j.fields["field"] == Str(item.field)
            && j.fields["current_value"] == item.currentValue && j.fields["new_value"] == item.newValue
  {
    Obj(map[
      "object_id" := item.objectId,
      "object_type_id" := item.objectTypeId,
      "status" := Str(item.status.Code()),
      "details" := Str(item.detail.Text(item.objectId, item.field)),
      "field" := Str(item.field),
      "current_value" := item.currentValue,
      "new_value" := item.newValue])
  }

  function ItemsJson(items: seq<PreviewItem>): (js: seq<Json>)
    ensures |js| == |items|
    ensures forall k :: 0 <= k < |items| ==> js[k] == ItemJson(items[k])
  {
    seq(|items|, k requires 0 <= k < |items| => ItemJson(items[k]))
  }

  /** The dict `call_dryrun` returns. The error shape and the success shape
      share no key: a caller reading "preview" or "payloads" from a successful
      dry run finds nothing, and one reading "result_payloads" from a rejected
      dry run finds nothing either. */
  function ResponseJson(r: DryRunResponse): (j: Json)
    ensures j.Obj?
    ensures r.DryRunError? ==>
              && j.fields.Keys == {"error", "preview", "payloads"}
              && j.fields["error"] == Str(r.error)
              && j.fields["preview"] == Arr([]) && j.fields["payloads"] == Arr([])
    ensures r.DryRunDone? ==>
              && j.fields.Keys == {"result_dryrun", "result_payloads"}
              && j.fields["result_payloads"] == Arr(r.payloads)
              && j.fields["result_dryrun"] == Arr(ItemsJson(r.preview))
  {
    match r
    case DryRunError(e) => Obj(map["error" := Str(e), "preview" := Arr([]), "payloads" := Arr([])])
    case DryRunDone(items, ps) => Obj(map["result_dryrun" := Arr(ItemsJson(items)), "result_payloads" := Arr(ps)])
  }

  /** The dry run over the identifiers that are fetched, as an independent
      filter over the references. */
  function WellFormedIds(refs: seq<Json>): seq<Json>
    decreases |refs|
  {
    if refs == [] then []
    else
      var last := refs[|refs| - 1];
      WellFormedIds(refs[..|refs| - 1]) + (if WellFormedRef(last) then [last.fields["objectId"]] else [])
  }

  lemma JoinAssoc(a: Scan, b: Scan, c: Scan)
    ensures Join(Join(a, b), c) == Join(a, Join(b, c))
  {
    assert (a.preview + b.preview) + c.preview == a.preview + (b.preview + c.preview);
    assert (a.payloads + b.payloads) + c.payloads == a.payloads + (b.payloads + c.payloads);
    assert (a.fetched + b.fetched) + c.fetched == a.fetched + (b.fetched + c.fetched);
  }

  /** The loop is a fold: scanning a + b is scanning a, then b, each on its own.
      In particular no reference changes what another one contributes. */
  lemma {:induction false} ScanAppend(a: seq<Json>, b: seq<Json>, field: string, newValue: Json, fetch: Json -> HttpOutcome)
    ensures ScanRefs(a + b, field, newValue, fetch) == Join(ScanRefs(a, field, newValue, fetch), ScanRefs(b, field, newValue, fetch))
    decreases |b|
  {
    if b == [] {
      assert a + b == a;
    } else {
      var b' := b[..|b| - 1];
      var last := b[|b| - 1];
      assert (a + b)[..|a + b| - 1] == a + b';
      assert (a + b)[|a + b| - 1] == last;
      var sa := ScanRefs(a, field, newValue, fetch);
      var sb := ScanRefs(b', field, newValue, fetch);
      var st := RefScan(last, field, newValue, fetch);
      calc {
        ScanRefs(a + b, field, newValue, fetch);
        Join(ScanRefs(a + b', field, newValue, fetch), st);
        { ScanAppend(a, b', field, newValue, fetch); }
        Join(Join(sa, sb), st);
        { JoinAssoc(sa, sb, st); }
        Join(sa, Join(sb, st));
        Join(sa, ScanRefs(b, field, newValue, fetch));
      }
    }
  }

  lemma {:induction false} ScanSingle(r: Json, field: string, newValue: Json, fetch: Json -> HttpOutcome)
    ensures ScanRefs([r], field, newValue, fetch) == RefScan(r, field, newValue, fetch)
  {
    assert [r][..0] == [];
    var s := RefScan(r, field, newValue, fetch);
    assert Join(NoScan, s) == s;
  }

  /** Scanning a, then r, then b: r contributes exactly what it contributes alone. */
  lemma ScanAround(a: seq<Json>, r: Json, b: seq<Json>, field: string, newValue: Json, fetch: Json -> HttpOutcome)
    ensures ScanRefs(a + [r] + b, field, newValue, fetch)
         == Join(Join(ScanRefs(a, field, newValue, fetch), RefScan(r, field, newValue, fetch)), ScanRefs(b, field, newValue, fetch))
  {
    ScanAppend(a + [r], b, field, newValue, fetch);
    ScanAppend(a, [r], field, newValue, fetch);
    ScanSingle(r, field, newValue, fetch);
  }

  /** A reference that is not a dict or lacks a truthy objectId or
      objectTypeId is skipped: no fetch, no item, no payload, and the
      references after it are processed as if it were not there. */
  lemma MalformedRefSkipped(a: seq<Json>, r: Json, b: seq<Json>, field: string, newValue: Json, fetch: Json -> HttpOutcome)
    requires RefIds(r).None?
    ensures ScanRefs(a + [r] + b, field, newValue, fetch) == ScanRefs(a + b, field, newValue, fetch)
  {
    ScanAround(a, r, b, field, newValue, fetch);
    ScanAppend(a, b, field, newValue, fetch);
    var sa := ScanRefs(a, field, newValue, fetch);
    assert RefScan(r, field, newValue, fetch) == NoScan;
    assert Join(sa, NoScan) == sa by {
      assert sa.preview + [] == sa.preview;
      assert sa.payloads + [] == sa.payloads;
      assert sa.fetched + [] == sa.fetched;
    }
  }

  /** On a decoded dict body the three outcomes that are recorded come down to
      the "objects" list and the first object's "properties": an empty or
      missing list is "no valid object", properties without the field are
      "does not exist", and a field whose entry is a dict is found with its
      "value", or "" without one. */
  lemma DictBodyInspected(field: string, status: nat, text: string, m: map<string, Json>)
    requires !RaisesForStatus(status)
    ensures var i := InspectFetch(field, Response(status, text, Parsed(Obj(m))));
            var objects := ObjectsOf(m);
            && (i == NoObject <==> !Truthy(objects))
            && (objects.Arr? && |objects.items| > 0 && objects.items[0].Obj?
                && PropertiesOf(objects.items[0].fields).Obj? ==>
                  var pm := PropertiesOf(objects.items[0].fields).fields;
                  && (i == NoField <==> field !in pm)
                  && (i.Found? ==> field in pm && pm[field].Obj? && i.current == Get(pm[field].fields, "value", Str(""))))
            && (i.Found? <==>
                  && objects.Arr? && |objects.items| > 0 && objects.items[0].Obj?
                  && PropertiesOf(objects.items[0].fields).Obj?
                  && field in PropertiesOf(objects.items[0].fields).fields
                  && PropertiesOf(objects.items[0].fields).fields[field].Obj?)
  {
  }

  /** A fetch that fails, or whose body raises while it is read, is logged and
      nothing else: one fetch is spent, no item and no payload appear, and
      later references are still processed. */
  lemma FailedFetchSkipped(a: seq<Json>, r: Json, b: seq<Json>, field: string, newValue: Json, fetch: Json -> HttpOutcome)
    requires RefIds(r).Some? && InspectFetch(field, fetch(RefIds(r).value.0)) == Dropped
    ensures var s := ScanRefs(a + [r] + b, field, newValue, fetch);
            var sa := ScanRefs(a, field, newValue, fetch);
            var sb := ScanRefs(b, field, newValue, fetch);
            && s.preview == sa.preview + sb.preview
            && s.payloads == sa.payloads + sb.payloads
            && s.fetched == sa.fetched + [RefIds(r).value.0] + sb.fetched
  {
    ScanAround(a, r, b, field, newValue, fetch);
    var sa := ScanRefs(a, field, newValue, fetch);
    assert sa.preview + [] == sa.preview;
    assert sa.payloads + [] == sa.payloads;
  }

  /** An object that comes back without objects, or without the target field,
      is recorded as a failed item with empty values, and gets no payload. */
  lemma FailedItemRecorded(a: seq<Json>, r: Json, b: seq<Json>, field: string, newValue: Json, fetch: Json -> HttpOutcome)
    requires RefIds(r).Some?
    requires InspectFetch(field, fetch(RefIds(r).value.0)) in {NoObject, NoField}
    ensures var (id, typeId) := RefIds(r).value;
            var detail := if InspectFetch(field, fetch(id)) == NoObject then NoValidObject else FieldDoesNotExist;
            var s := ScanRefs(a + [r] + b, field, newValue, fetch);
            var sa := ScanRefs(a, field, newValue, fetch);
            var sb := ScanRefs(b, field, newValue, fetch);
            && s.preview == sa.preview + [PreviewItem(id, typeId, Failed, detail, field, Str(""), Str(""))] + sb.preview
            && s.payloads == sa.payloads + sb.payloads
  {
    ScanAround(a, r, b, field, newValue, fetch);
    var sa := ScanRefs(a, field, newValue, fetch);
    assert sa.payloads + [] == sa.payloads;
  }

  /** An object whose field is present yields a go item carrying its current
      value, and the payload for exactly that item, in the same position among
      the go items. */
  lemma GoItemRecorded(a: seq<Json>, r: Json, b: seq<Json>, field: string, newValue: Json, fetch: Json -> HttpOutcome)
    requires RefIds(r).Some?
    requires InspectFetch(field, fetch(RefIds(r).value.0)).Found?
    ensures var (id, typeId) := RefIds(r).value;
            var item := PreviewItem(id, typeId, Ok, Go, field, InspectFetch(field, fetch(id)).current, newValue);
            var s := ScanRefs(a + [r] + b, field, newValue, fetch);
            var sa := ScanRefs(a, field, newValue, fetch);
            var sb := ScanRefs(b, field, newValue, fetch);
            && s.preview == sa.preview + [item] + sb.preview
            && s.payloads == sa.payloads + [PayloadFor(item)] + sb.payloads
  {
    ScanAround(a, r, b, field, newValue, fetch);
    GoRefScan(r, field, newValue, fetch);
  }

  lemma GoRefScan(r: Json, field: string, newValue: Json, fetch: Json -> HttpOutcome)
    requires RefIds(r).Some?
    requires InspectFetch(field, fetch(RefIds(r).value.0)).Found?
    ensures var (id, typeId) := RefIds(r).value;
            var item := PreviewItem(id, typeId, Ok, Go, field, InspectFetch(field, fetch(id)).current, newValue);
            RefScan(r, field, newValue, fetch) == Scan([item], [PayloadFor(item)], [id])
  {
  }

  /** Every well-formed reference is fetched exactly once, in order, and
      nothing else is fetched. */
  lemma {:induction false} FetchesExactlyWellFormed(refs: seq<Json>, field: string, newValue: Json, fetch: Json -> HttpOutcome)
    ensures ScanRefs(refs, field, newValue, fetch).fetched == WellFormedIds(refs)
    decreases |refs|
  {
    if refs != [] {
      FetchesExactlyWellFormed(refs[..|refs| - 1], field, newValue, fetch);
      RefScanFetched(refs[|refs| - 1], field, newValue, fetch);
    }
  }

  lemma RefScanFetched(r: Json, field: string, newValue: Json, fetch: Json -> HttpOutcome)
    ensures RefScan(r, field, newValue, fetch).fetched == if WellFormedRef(r) then [r.fields["objectId"]] else []
  {
    match RefIds(r)
    case None =>
    case Some((id, _)) =>
      match InspectFetch(field, fetch(id))
      case Dropped =>
      case NoObject =>
      case NoField =>
      case Found(_) =>
  }

  /** Payloads and go items correspond one to one, in order: the k-th payload
      holds the identifiers, field and new value of the k-th go item. */
  lemma PayloadsMatchGoItems(refs: seq<Json>, fieldName: Json, newValue: Json, fetch: Json -> HttpOutcome)
    requires CallDryrun(refs, fieldName, newValue, fetch).response.DryRunDone?
    ensures var r := CallDryrun(refs, fieldName, newValue, fetch).response;
            && |r.payloads| == |OkItems(r.preview)|
            && forall k :: 0 <= k < |r.payloads| ==> r.payloads[k] == PayloadFor(OkItems(r.preview)[k])
  {
    ScanShape(refs, fieldName.s, newValue, fetch);
  }

  /** One pass of the loop body (lines 153-246): append to the two lists
      what reference r contributes. */
  method VisitRef(r: Json, field: string, newValue: Json, fetch: Json -> HttpOutcome,
                  preview: seq<PreviewItem>, payloads: seq<Json>, fetched: seq<Json>)
    returns (preview': seq<PreviewItem>, payloads': seq<Json>, fetched': seq<Json>)
    ensures Scan(preview', payloads', fetched') == Join(Scan(preview, payloads, fetched), RefScan(r, field, newValue, fetch))
  {
    preview', payloads', fetched' := preview, payloads, fetched;
    var ids := RefIds(r);
    if ids.None? {
      assert preview == preview + [] && payloads == payloads + [] && fetched == fetched + [];
      return;
    }
    var (id, typeId) := ids.value;
    fetched' := fetched + [id];
    match InspectFetch(field, fetch(id)) {
      case Dropped =>
        assert preview == preview + [] && payloads == payloads + [];
      case NoObject =>
        preview' := preview + [PreviewItem(id, typeId, Failed, NoValidObject, field, Str(""), Str(""))];
        assert payloads == payloads + [];
      case NoField =>
        preview' := preview + [PreviewItem(id, typeId, Failed, FieldDoesNotExist, field, Str(""), Str(""))];
        assert payloads == payloads + [];
      case Found(current) =>
        preview' := preview + [PreviewItem(id, typeId, Ok, Go, field, current, newValue)];
        payloads' := payloads + [PreparedPayload(id, typeId, field, newValue)];
    }
  }

  /** `call_dryrun` as the source writes it: a loop that appends to two lists. */
  method CallDryrunLoop(refs: seq<Json>, fieldName: Json, newValue: Json, fetch: Json -> HttpOutcome) returns (run: DryRunRun)
    ensures run == CallDryrun(refs, fieldName, newValue, fetch)
  {
    if refs == [] {
      return DryRunRun(DryRunError("No search results provided"), []);
    }
    if !ValidFieldName(fieldName) {
      return DryRunRun(DryRunError("Invalid field name"), []);
    }
    var field := fieldName.s;
    var preview: seq<PreviewItem> := [];
    var payloads: seq<Json> := [];
    var fetched: seq<Json> := [];
    var i := 0;
    while i < |refs|
      invariant 0 <= i <= |refs|
      invariant Scan(preview, payloads, fetched) == ScanRefs(refs[..i], field, newValue, fetch)
    {
      preview, payloads, fetched := VisitRef(refs[i], field, newValue, fetch, preview, payloads, fetched);
      ScanStep(refs, i, field, newValue, fetch);
      i := i + 1;
    }
    assert refs[..i] == refs;
    return DryRunRun(DryRunDone(preview, payloads), fetched);
  }
}

=== FILE: pipeline.dfy ===
/** How the dry run's payloads fare in the batch update. `call_update` is
    documented as consuming what `call_dryrun` prepares, but the dry run wraps
    each payload as {"objects": [{"properties": ...}]} while the update expects
    "properties" at the top and wraps it in "objects" itself. */
module Pipeline {
  import opened PyJson
  import opened Backend
  import D = DryRun
  import U = Update

  /** The shape of every payload the dry run prepares. */
  predicate Prepared(p: Json) {
    && p.Obj? && p.fields.Keys == {"objects"}
    && p.fields["objects"].Arr? && |p.fields["objects"].items| == 1
    && var x := p.fields["objects"].items[0];
       && x.Obj? && x.fields.Keys == {"properties"} && x.fields["properties"].Obj?
       && var props := x.fields["properties"].fields;
          "system:objectId" in props && props["system:objectId"].Obj?
  }

  lemma PayloadForPrepared(item: D.PreviewItem)
    ensures Prepared(D.PayloadFor(item))
  {
  }

  /** Every payload of a successful dry run has the prepared shape. */
  lemma DryRunPayloadsPrepared(refs: seq<Json>, fieldName: Json, newValue: Json, fetch: Json -> HttpOutcome)
    requires D.CallDryrun(refs, fieldName, newValue, fetch).response.DryRunDone?
    ensures var ps := D.CallDryrun(refs, fieldName, newValue, fetch).response.payloads;
            forall k :: 0 <= k < |ps| ==> Prepared(ps[k])
  {
    D.PayloadsMatchGoItems(refs, fieldName, newValue, fetch);
    var r := D.CallDryrun(refs, fieldName, newValue, fetch).response;
    forall k | 0 <= k < |r.payloads|
      ensures Prepared(r.payloads[k])
    {
      PayloadForPrepared(D.OkItems(r.preview)[k]);
    }
  }

  lemma {:induction false} NothingPostedWithoutProperties(ps: seq<Json>)
    requires forall k :: 0 <= k < |ps| ==> ps[k].Obj? && "properties" !in ps[k].fields
    ensures U.PostedBodies(ps) == []
    decreases |ps|
  {
    if ps != [] {
      NothingPostedWithoutProperties(ps[..|ps| - 1]);
    }
  }

  lemma {:induction false} NoSuccessCountsZero(results: seq<U.UpdateResult>)
    requires forall k :: 0 <= k < |results| ==> results[k].Failed?
    ensures U.CountSucceeded(results) == 0
    decreases |results|
  {
    if results != [] {
      NoSuccessCountsZero(results[..|results| - 1]);
    }
  }

  /** A prepared payload handed to the update as it is does not raise, and has
      no top-level "properties". */
  lemma PreparedLogged(p: Json)
    requires Prepared(p)
    ensures U.LoggedObjectId(p) == Some(Str("unknown")) && "properties" !in p.fields
  {
  }

  /** A batch of dict payloads none of which has a top-level "properties" key
      is recorded entirely as failed, index by index, without one call. */
  lemma WithoutPropertiesAllRejected(ps: seq<Json>, post: Json -> HttpOutcome)
    requires ps != []
    requires forall k :: 0 <= k < |ps| ==> ps[k].Obj? && "properties" !in ps[k].fields
    ensures var run := U.CallUpdate(Arr(ps), post);
            && run.sent == []
            && run.response.UpdateDone?
            && run.response.summary == U.Summary(|ps|, 0, |ps|, Some(U.Percent(0, |ps|)))
            && forall k :: 0 <= k < |ps| ==>
                 run.response.results[k] == U.Failed(k, Str("unknown"), None, U.MissingPropertiesMessage(k))
  {
    forall k | 0 <= k < |ps|
      ensures U.LoggedObjectId(ps[k]).Some? && "properties" !in ps[k].fields
    {
      U.LoggedObjectIdCases(ps[k]);
    }
    var b := U.RunBatch(ps, post);
    U.CompletedBatch(ps, post);
    U.SentExactlyPosted(ps, post);
    NothingPostedWithoutProperties(ps);
    forall k | 0 <= k < |ps|
      ensures b.results[k] == U.Failed(k, Str("unknown"), None, U.MissingPropertiesMessage(k))
    {
      U.MissingPropertiesRecorded(ps, k, post);
    }
    NoSuccessCountsZero(b.results);
  }

  /** As written: feeding a dry run's payloads to the update, as its
      documentation says to, never reaches the backend. With at least one
      payload every result is a structural failure and nothing succeeds; with
      none the update rejects the call. */
  lemma DryRunPayloadsNeverSent(refs: seq<Json>, fieldName: Json, newValue: Json,
                                fetch: Json -> HttpOutcome, post: Json -> HttpOutcome)
    requires D.CallDryrun(refs, fieldName, newValue, fetch).response.DryRunDone?
    ensures var ps := D.CallDryrun(refs, fieldName, newValue, fetch).response.payloads;
            var run := U.CallUpdate(Arr(ps), post);
            && run.sent == []
            && (ps == [] ==> run.response == U.UpdateError("No payloads provided", U.RejectionSummary))
            && (ps != [] ==> run.response.UpdateDone? && run.response.summary.successful == 0
                             && run.response.summary.failed == |ps|)
  {
    var ps := D.CallDryrun(refs, fieldName, newValue, fetch).response.payloads;
    if ps != [] {
      DryRunPayloadsPrepared(refs, fieldName, newValue, fetch);
      forall k | 0 <= k < |ps|
        ensures ps[k].Obj? && "properties" !in ps[k].fields
      {
        PreparedLogged(ps[k]);
      }
      WithoutPropertiesAllRejected(ps, post);
    }
  }

  /** The payload the update expects: the element the dry run wrapped. */
  function Unwrap(p: Json): Json {
    if Prepared(p) then p.fields["objects"].items[0] else p
  }

  /** The update's request body around an unwrapped prepared payload is the
      prepared payload itself. */
  lemma UnwrapRoundTrip(p: Json)
    requires Prepared(p)
    ensures U.ApiBody(Unwrap(p)) == p
    ensures U.LoggedObjectId(Unwrap(p)).Some? && "properties" in Unwrap(p).fields
  {
    var x := p.fields["objects"].items[0];
    assert p.fields["objects"].items == [x];
    assert p.fields == map["objects" := Arr([x])];
  }

  function UnwrapAll(ps: seq<Json>): (us: seq<Json>)
    ensures |us| == |ps|
    ensures forall k :: 0 <= k < |ps| ==> us[k] == Unwrap(ps[k])
  {
    seq(|ps|, k requires 0 <= k < |ps| => Unwrap(ps[k]))
  }

  /** Corrected commit: unwrap each prepared payload before the update, so the
      update's own wrapping restores it. */
  function Commit(payloads: seq<Json>, post: Json -> HttpOutcome): U.UpdateRun {
    U.CallUpdate(Arr(UnwrapAll(payloads)), post)
  }

  lemma {:induction false} UnwrappedPostedAsPrepared(ps: seq<Json>)
    requires forall k :: 0 <= k < |ps| ==> Prepared(ps[k])
    ensures U.PostedBodies(UnwrapAll(ps)) == ps
    decreases |ps|
  {
    if ps != [] {
      var n := |ps| - 1;
      UnwrappedPostedAsPrepared(ps[..n]);
      assert UnwrapAll(ps)[..n] == UnwrapAll(ps[..n]);
      UnwrapRoundTrip(ps[n]);
      assert ps == ps[..n] + [ps[n]];
    }
  }

  /** Committing prepared payloads posts exactly those payloads, one call
      each and in order, with one result per payload at its index. */
  lemma CommitPrepared(ps: seq<Json>, post: Json -> HttpOutcome)
    requires ps != []
    requires forall k :: 0 <= k < |ps| ==> Prepared(ps[k])
    ensures var run := Commit(ps, post);
            && run.sent == ps
            && run.response.UpdateDone?
            && |run.response.results| == |ps|
            && forall k :: 0 <= k < |ps| ==> run.response.results[k] == U.AttemptAt(k, Unwrap(ps[k]), post).value.result
  {
    var us := UnwrapAll(ps);
    UnwrapAllNeverRaises(ps);
    U.CompletedBatch(us, post);
    U.SentExactlyPosted(us, post);
    UnwrappedPostedAsPrepared(ps);
    U.ResultsIndependent(us, post);
  }

  lemma UnwrapAllNeverRaises(ps: seq<Json>)
    requires forall k :: 0 <= k < |ps| ==> Prepared(ps[k])
    ensures forall k :: 0 <= k < |ps| ==> U.LoggedObjectId(UnwrapAll(ps)[k]).Some?
  {
    forall k | 0 <= k < |ps|
      ensures U.LoggedObjectId(UnwrapAll(ps)[k]).Some?
    {
      UnwrapRoundTrip(ps[k]);
    }
  }

  /** Corrected: committing a dry run's payloads posts exactly the request
      bodies the dry run prepared, one call each and in order, and records one
      result per payload at its index. */
  lemma CorrectedPayloadsSentAsPrepared(refs: seq<Json>, fieldName: Json, newValue: Json,
                                        fetch: Json -> HttpOutcome, post: Json -> HttpOutcome)
    requires D.CallDryrun(refs, fieldName, newValue, fetch).response.DryRunDone?
    requires D.CallDryrun(refs, fieldName, newValue, fetch).response.payloads != []
    ensures var ps := D.CallDryrun(refs, fieldName, newValue, fetch).response.payloads;
            var run := Commit(ps, post);
            && run.sent == ps
            && run.response.UpdateDone?
            && |run.response.results| == |ps|
  {
    DryRunPayloadsPrepared(refs, fieldName, newValue, fetch);
    CommitPrepared(D.CallDryrun(refs, fieldName, newValue, fetch).response.payloads, post);
  }

  /** The stored object of an invoice: its properties, each wrapped. */
  function InvoiceObject(props: map<string, Json>): Json {
    Obj(map["properties" := Obj(props)])
  }

  /** The GET answer for an invoice: a body listing one object. */
  function InvoiceBody(props: map<string, Json>): Json {
    Obj(map["objects" := Arr([InvoiceObject(props)])])
  }

  /** Two invoices; only the first has the property "zahl1". */
  function InvoiceFetch(id: Json): HttpOutcome {
    var props := if id == Str("1") then map["zahl1" := Wrapped(Num(7))] else map[];
    Response(200, "", Parsed(InvoiceBody(props)))
  }

  function InvoiceRef(id: string): Json {
    Obj(map["objectId" := Str(id), "objectTypeId" := Str("invoice")])
  }

  /** A backend that accepts every update. */
  function AcceptAll(body: Json): HttpOutcome {
    Response(200, "", Parsed(Obj(map[])))
  }

  function InvoiceGo(): D.PreviewItem {
    D.PreviewItem(Str("1"), Str("invoice"), D.Ok, D.Go, "zahl1", Num(7), Str("42"))
  }

  function InvoiceMissing(): D.PreviewItem {
    D.PreviewItem(Str("2"), Str("invoice"), D.Failed, D.FieldDoesNotExist, "zahl1", Str(""), Str(""))
  }

  lemma InvoiceRefIds(id: string)
    requires id != ""
    ensures D.RefIds(InvoiceRef(id)) == Some((Str(id), Str("invoice")))
  {
    var m := map["objectId" := Str(id), "objectTypeId" := Str("invoice")];
    assert Get(m, "objectId", Null) == Str(id);
    assert Get(m, "objectTypeId", Null) == Str("invoice");
  }

  /** Inspecting an invoice body comes down to inspecting its one object. */
  lemma InvoiceBodyInspected(field: string, props: map<string, Json>)
    ensures D.InspectBody(field, InvoiceBody(props)) == D.InspectObject(field, InvoiceObject(props))
  {
    var m := map["objects" := Arr([InvoiceObject(props)])];
    assert Get(m, "objects", Arr([])) == Arr([InvoiceObject(props)]);
  }

  /** Invoice 1 has the field: it is previewed as a go item with a payload. */
  lemma InvoiceFirstScan()
    ensures D.RefScan(InvoiceRef("1"), "zahl1", Str("42"), InvoiceFetch)
         == D.Scan([InvoiceGo()], [D.PayloadFor(InvoiceGo())], [Str("1")])
  {
    var props := map["zahl1" := Wrapped(Num(7))];
    InvoiceRefIds("1");
    assert InvoiceFetch(Str("1")) == Response(200, "", Parsed(InvoiceBody(props)));
    InvoiceBodyInspected("zahl1", props);
    var om := map["properties" := Obj(props)];
    assert Get(om, "properties", Obj(map[])) == Obj(props);
    assert Get(map["value" := Num(7)], "value", Str("")) == Num(7);
    assert D.InspectObject("zahl1", InvoiceObject(props)) == D.Found(Num(7));
  }

  /** Invoice 2 lacks the field: it is previewed as failed, without a payload. */
  lemma InvoiceSecondScan()
    ensures D.RefScan(InvoiceRef("2"), "zahl1", Str("42"), InvoiceFetch)
         == D.Scan([InvoiceMissing()], [], [Str("2")])
  {
    var props: map<string, Json> := map[];
    InvoiceRefIds("2");
    assert Str("2") != Str("1");
    assert InvoiceFetch(Str("2")) == Response(200, "", Parsed(InvoiceBody(props)));
    InvoiceBodyInspected("zahl1", props);
    var om := map["properties" := Obj(props)];
    assert Get(om, "properties", Obj(map[])) == Obj(props);
    assert D.InspectObject("zahl1", InvoiceObject(props)) == D.NoField;
  }

  lemma ScanOfTwo(r1: Json, r2: Json, field: string, newValue: Json, fetch: Json -> HttpOutcome)
    ensures D.ScanRefs([r1, r2], field, newValue, fetch)
         == D.Join(D.RefScan(r1, field, newValue, fetch), D.RefScan(r2, field, newValue, fetch))
  {
    D.ScanSingle(r1, field, newValue, fetch);
    assert [r1, r2][..1] == [r1];
  }

  lemma DoneReportsScan(refs: seq<Json>, field: string, newValue: Json, fetch: Json -> HttpOutcome)
    requires refs != [] && field != ""
    ensures var s := D.ScanRefs(refs, field, newValue, fetch);
            D.CallDryrun(refs, Str(field), newValue, fetch) == D.DryRunRun(D.DryRunDone(s.preview, s.payloads), s.fetched)
  {
  }

  /** A dry run over two references reports the two scans one after the other. */
  lemma DryRunOfTwo(refs: seq<Json>, field: string, newValue: Json, fetch: Json -> HttpOutcome, s1: D.Scan, s2: D.Scan)
    requires |refs| == 2 && field != ""
    requires D.RefScan(refs[0], field, newValue, fetch) == s1
    requires D.RefScan(refs[1], field, newValue, fetch) == s2
    ensures D.CallDryrun(refs, Str(field), newValue, fetch)
         == D.DryRunRun(D.DryRunDone(s1.preview + s2.preview, s1.payloads + s2.payloads), s1.fetched + s2.fetched)
  {
    assert refs == [refs[0], refs[1]];
    ScanOfTwo(refs[0], refs[1], field, newValue, fetch);
    DoneReportsScan(refs, field, newValue, fetch);
  }

  lemma PairConcat<T>(a: T, b: T)
    ensures [a] + [b] == [a, b]
  {
  }

  lemma EmptyAfter<T>(a: T)
    ensures [a] + [] == [a]
  {
  }

  /** The two-invoice example: references to invoices "1" and "2", of which
      only the first has the field "zahl1", set to the new value "42". In its
      dry run both invoices are fetched, one go item and one failed item are
      previewed, and one payload is prepared. */
  lemma InvoiceDryRun()
    ensures D.CallDryrun([InvoiceRef("1"), InvoiceRef("2")], Str("zahl1"), Str("42"), InvoiceFetch)
         == D.DryRunRun(D.DryRunDone([InvoiceGo(), InvoiceMissing()], [D.PayloadFor(InvoiceGo())]),
                        [Str("1"), Str("2")])
  {
    InvoiceFirstScan();
    InvoiceSecondScan();
    DryRunOfTwo([InvoiceRef("1"), InvoiceRef("2")], "zahl1", Str("42"), InvoiceFetch,
                D.Scan([InvoiceGo()], [D.PayloadFor(InvoiceGo())], [Str("1")]),
                D.Scan([InvoiceMissing()], [], [Str("2")]));
    PairConcat(InvoiceGo(), InvoiceMissing());
    PairConcat(Str("1"), Str("2"));
    EmptyAfter(D.PayloadFor(InvoiceGo()));
  }

  lemma AcceptedAttemptSucceeds(idx: nat, u: Json)
    requires U.LoggedObjectId(u).Some? && "properties" in u.fields
    ensures U.AttemptAt(idx, u, AcceptAll).value.result.Succeeded?
  {
  }

  lemma {:induction false} AllSucceededCount(results: seq<U.UpdateResult>)
    requires forall k :: 0 <= k < |results| ==> results[k].Succeeded?
    ensures U.CountSucceeded(results) == |results|
    decreases |results|
  {
    if results != [] {
      AllSucceededCount(results[..|results| - 1]);
    }
  }

  /** Prepared payloads committed to a backend that accepts everything are
      each posted once, in order, and all count as successes. */
  lemma CommitAllAccepted(ps: seq<Json>)
    requires ps != []
    requires forall k :: 0 <= k < |ps| ==> Prepared(ps[k])
    ensures var run := Commit(ps, AcceptAll);
            && run.response.UpdateDone?
            && run.response.summary == U.Summary(|ps|, |ps|, 0, Some(U.Percent(|ps|, |ps|)))
            && run.sent == ps
  {
    CommitPrepared(ps, AcceptAll);
    var rs := Commit(ps, AcceptAll).response.results;
    forall k | 0 <= k < |ps|
      ensures rs[k].Succeeded?
    {
      UnwrapRoundTrip(ps[k]);
      AcceptedAttemptSucceeds(k, Unwrap(ps[k]));
    }
    AllSucceededCount(rs);
  }

  /** One prepared payload, committed to a backend that accepts everything,
      is posted once and counts as one success. */
  lemma CommitOneAccepted(p: Json)
    requires Prepared(p)
    ensures var run := Commit([p], AcceptAll);
            run.response.UpdateDone? && run.response.summary == U.Summary(1, 1, 0, Some(U.Percent(1, 1)))
            && run.sent == [p]
  {
    CommitAllAccepted([p]);
  }

  /** The update of the two-invoice example (see `InvoiceDryRun`): sent as
      the dry run prepared it, the one payload is rejected without a call;
      unwrapped first, it is posted and succeeds. */
  lemma InvoiceUpdate()
    ensures var run := U.CallUpdate(Arr([D.PayloadFor(InvoiceGo())]), AcceptAll);
            run.response.UpdateDone? && run.response.summary == U.Summary(1, 0, 1, Some(U.Percent(0, 1))) && run.sent == []
    ensures var run := Commit([D.PayloadFor(InvoiceGo())], AcceptAll);
            run.response.UpdateDone? && run.response.summary == U.Summary(1, 1, 0, Some(U.Percent(1, 1)))
            && run.sent == [D.PayloadFor(InvoiceGo())]
  {
    PayloadForPrepared(InvoiceGo());
    PreparedLogged(D.PayloadFor(InvoiceGo()));
    WithoutPropertiesAllRejected([D.PayloadFor(InvoiceGo())], AcceptAll);
    CommitOneAccepted(D.PayloadFor(InvoiceGo()));
  }
}

=== FILE: pyjson.dfy ===
/** Decoded JSON as the service's Python code sees it, and the handful of
    Python operations (truthiness, `dict.get`, `str in str`, `str()` of a
    number) that the dry-run and update loops apply to it. */
module PyJson {

  datatype Option<+T> = None | Some(value: T)

  /** A decoded JSON value. Numbers are integers; dict keys are strings. */
  datatype Json =
    | Null
    | Bool(b: bool)
    | Num(n: int)
    | Str(s: string)
    | Arr(items: seq<Json>)
    | Obj(fields: map<string, Json>)

  /** Python truthiness, as used by `if not x`. */
  predicate Truthy(j: Json) {
    match j
    case Null => false
    case Bool(b) => b
    case Num(n) => n != 0
    case Str(s) => |s| > 0
    case Arr(xs) => |xs| > 0
    case Obj(m) => |m| > 0
  }

  /** `d.get(key, default)` on a dict. */
  function Get(fields: map<string, Json>, key: string, default: Json): Json {
    if key in fields then fields[key] else default
  }

  /** `{"value": v}`, the wrapper the backend puts around every property value. */
  function Wrapped(v: Json): Json {
    Obj(map["value" := v])
  }

  /** `needle in haystack` for two `str` values. */
  predicate IsSubstring(needle: string, haystack: string)
    decreases |haystack|
  {
    || (|needle| <= |haystack| && haystack[..|needle|] == needle)
    || (|haystack| > 0 && IsSubstring(needle, haystack[1..]))
  }

  /** `text[:n]`: the first n characters, or all of them when there are fewer. */
  function Truncate(text: string, n: nat): (r: string)
    ensures |r| == if |text| <= n then |text| else n
    ensures r <= text
    ensures |text| <= n ==> r == text
  {
    if |text| <= n then text else text[..n]
  }

  predicate IsDigit(c: char) {
    '0' <= c <= '9'
  }

  function DigitChar(d: nat): (c: char)
    requires d < 10
    ensures IsDigit(c) && c as int - '0' as int == d
  {
    "0123456789"[d]
  }

  /** Decimal rendering of a natural number, as an f-string renders an int. */
  function NatToString(n: nat): (s: string)
    ensures |s| > 0
    ensures forall i :: 0 <= i < |s| ==> IsDigit(s[i])
    decreases n
  {
    if n < 10 then [DigitChar(n)] else NatToString(n / 10) + [DigitChar(n % 10)]
  }

  /** The value of a string of decimal digits: the reading partner of NatToString. */
  function DigitsValue(s: string): nat
    requires forall i :: 0 <= i < |s| ==> IsDigit(s[i])
    decreases |s|
  {
    if s == [] then 0
    else
      assert IsDigit(s[|s| - 1]);
      DigitsValue(s[..|s| - 1]) * 10 + (s[|s| - 1] as int - '0' as int)
  }

  /** Reading back a rendered number gives the number: the decimal indices and
      status codes embedded in error messages are unambiguous. */
  lemma {:induction false} NatToStringRoundTrip(n: nat)
    ensures DigitsValue(NatToString(n)) == n
    decreases n
  {
    if n >= 10 {
      var s := NatToString(n);
      NatToStringRoundTrip(n / 10);
      assert s[..|s| - 1] == NatToString(n / 10);
    }
  }

  /** NatToString never maps two numbers to the same text. */
  lemma NatToStringInjective(m: nat, n: nat)
    requires NatToString(m) == NatToString(n)
    ensures m == n
  {
    NatToStringRoundTrip(m);
    NatToStringRoundTrip(n);
  }

  function IntToString(i: int): string {
    if i < 0 then "-" + NatToString(-i) else NatToString(i)
  }

  /** `str(j)` for the scalar values an object identifier takes in practice.
      The Python repr of a list or dict is not modelled; such identifiers
      render as a fixed marker. */
  function PyStr(j: Json): string {
    match j
    case Null => "None"
    case Bool(b) => if b then "True" else "False"
    case Num(n) => IntToString(n)
    case Str(s) => s
    case Arr(_) => "<list>"
    case Obj(_) => "<dict>"
  }
}

=== FILE: search.dfy ===
/** The request body `call_search` sends to the search endpoint: a query
    statement glued together from three caller strings, plus fixed paging. */
module Search {
  import opened PyJson

  /** `maxItems`: one page of results, never more. */
  const PageSize: nat := 10

  const DeletedPolicy: string := "DELETED_DOCUMENTS_EXCLUDE"

  /** The three caller strings that make up a query. */
  datatype Query = Query(field: string, folder: string, condition: string)

  /** The query statement. The parts are inserted verbatim: nothing is quoted
      or escaped. */
  function Statement(q: Query): (s: string)
    ensures |s| == |q.field| + |q.folder| + |q.condition| + 20
    ensures s[..7] == "SELECT "
    ensures s[|s| - |q.condition|..] == q.condition
  {
    "SELECT " + (q.field + (" FROM " + (q.folder + (" WHERE " + q.condition))))
  }

  /** The JSON body posted to `/api/dms/objects/search`. */
  function SearchPayload(q: Query): (p: Json)
    ensures p.Obj? && p.fields.Keys == {"query"}
    ensures p.fields["query"].Obj?
    ensures p.fields["query"].fields.Keys == {"statement", "skipCount", "maxItems", "handleDeletedDocuments"}
  {
    Obj(map["query" := Obj(map[
      "statement" := Str(Statement(q)),
      "skipCount" := Num(0),
      "maxItems" := Num(PageSize),
      "handleDeletedDocuments" := Str(DeletedPolicy)])])
  }

  /** Index of the first blank in s, if any. */
  function FirstBlank(s: string): (r: Option<nat>)
    ensures r.Some? ==> r.value < |s| && s[r.value] == ' ' && ' ' !in s[..r.value]
    ensures r.None? ==> ' ' !in s
    decreases |s|
  {
    if s == [] then None
    else if s[0] == ' ' then Some(0)
    else match FirstBlank(s[1..])
      case None => None
      case Some(i) =>
        assert s[..i + 1] == [s[0]] + s[1..][..i];
        Some(i + 1)
  }

  /** The text before the first blank and the text after it. */
  function SplitWord(s: string): Option<(string, string)> {
    match FirstBlank(s)
    case None => None
    case Some(i) => Some((s[..i], s[i + 1..]))
  }

  /** s without the leading keyword kw, if s starts with it. */
  function AfterKeyword(kw: string, s: string): Option<string> {
    if |kw| <= |s| && s[..|kw|] == kw then Some(s[|kw|..]) else None
  }

  /** Reads a statement back into its parts, splitting at blanks: the field
      selector ends at the first blank, the folder at the next blank after
      "FROM ", and everything after "WHERE " is the condition. */
  function ParseStatement(s: string): Option<Query> {
    match AfterKeyword("SELECT ", s)
    case None => None
    case Some(r1) =>
      match SplitWord(r1)
      case None => None
      case Some((field, r2)) =>
        match AfterKeyword("FROM ", r2)
        case None => None
        case Some(r3) =>
          match SplitWord(r3)
          case None => None
          case Some((folder, r4)) =>
            match AfterKeyword("WHERE ", r4)
            case None => None
            case Some(condition) => Some(Query(field, folder, condition))
  }

  lemma {:induction false} FirstBlankAfterWord(a: string, rest: string)
    requires ' ' !in a
    requires |rest| > 0 && rest[0] == ' '
    ensures FirstBlank(a + rest) == Some(|a|)
    decreases |a|
  {
    if a != [] {
      assert (a + rest)[1..] == a[1..] + rest;
      assert a[0] in a;
      assert forall c :: c in a[1..] ==> c in a;
      FirstBlankAfterWord(a[1..], rest);
    }
  }

  /** A blank-free word followed by a blank splits off at that blank. */
  lemma SplitWordAfterWord(a: string, rest: string)
    requires ' ' !in a
    requires |rest| > 0 && rest[0] == ' '
    ensures SplitWord(a + rest) == Some((a, rest[1..]))
  {
    FirstBlankAfterWord(a, rest);
    var s := a + rest;
    assert s[..|a|] == a;
    assert s[|a| + 1..] == rest[1..];
  }

  /** A blank, the keyword and a tail: dropping the blank leaves the keyword
      to strip. */
  lemma AfterBlankKeyword(kw: string, b: string)
    requires |kw| > 0 && kw[0] == ' '
    ensures AfterKeyword(kw[1..], (kw + b)[1..]) == Some(b)
  {
    var s := (kw + b)[1..];
    assert s == kw[1..] + b;
    assert s[..|kw[1..]|] == kw[1..];
    assert s[|kw[1..]|..] == b;
  }

  lemma AfterKeywordPrefix(kw: string, b: string)
    ensures AfterKeyword(kw, kw + b) == Some(b)
  {
    assert (kw + b)[..|kw|] == kw;
    assert (kw + b)[|kw|..] == b;
  }

  /** When the field selector and the folder contain no blank, the statement
      determines the query: the backend sees exactly the caller's three parts,
      whatever the condition holds. */
  lemma StatementRoundTrip(q: Query)
    requires ' ' !in q.field && ' ' !in q.folder
    ensures ParseStatement(Statement(q)) == Some(q)
  {
    var r4 := " WHERE " + q.condition;
    var r3 := q.folder + r4;
    var r2 := " FROM " + r3;
    var r1 := q.field + r2;
    AfterKeywordPrefix("SELECT ", r1);
    SplitWordAfterWord(q.field, r2);
    AfterBlankKeyword(" FROM ", r3);
    assert " FROM "[1..] == "FROM ";
    SplitWordAfterWord(q.folder, r4);
    AfterBlankKeyword(" WHERE ", q.condition);
    assert " WHERE "[1..] == "WHERE ";
  }

  /** No escaping: text in the folder that looks like a WHERE clause is
      indistinguishable from a condition, so two different queries produce the
      same statement. */
  lemma StatementNotInjective(field: string, folder: string, injected: string, condition: string)
    ensures Query(field, folder + " WHERE " + injected, condition) != Query(field, folder, injected + " WHERE " + condition)
    ensures Statement(Query(field, folder + " WHERE " + injected, condition))
         == Statement(Query(field, folder, injected + " WHERE " + condition))
  {
    var q1 := Query(field, folder + " WHERE " + injected, condition);
    var q2 := Query(field, folder, injected + " WHERE " + condition);
    assert |q1.folder| != |q2.folder|;
    var tail := folder + " WHERE " + injected + " WHERE " + condition;
    assert q1.folder + (" WHERE " + q1.condition) == tail;
    assert q2.folder + (" WHERE " + q2.condition) == tail;
  }

  /** The statement and paging a search sends. */
  lemma SearchPayloadContents(q: Query)
    ensures ParseStatement(SearchPayload(q).fields["query"].fields["statement"].s) == Some(q)
            || ' ' in q.field || ' ' in q.folder
    ensures SearchPayload(q).fields["query"].fields["maxItems"] == Num(PageSize)
    ensures SearchPayload(q).fields["query"].fields["skipCount"] == Num(0)
    ensures SearchPayload(q).fields["query"].fields["handleDeletedDocuments"] == Str(DeletedPolicy)
  {
    if ' ' !in q.field && ' ' !in q.folder {
      StatementRoundTrip(q);
    }
  }
}

=== FILE: update.dfy ===
/** The batch update of `call_update`: one POST per payload, in order, one
    recorded result per payload, and a summary of the counts. */
module Update {
  import opened PyJson
  import opened Backend

  /** One entry of "results". A failure carries "status_code" only when the
      backend answered with an error status. */
  datatype UpdateResult =
    | Succeeded(index: nat, objectId: Json, statusCode: nat, response: Json)
    | Failed(index: nat, objectId: Json, errorStatus: Option<nat>, error: string)

  /** The "success_rate" string: `successful/total*100` with one decimal and a
      percent sign, or the literal "0%". The float formatting is not modelled;
      the value records what is formatted. */
  datatype SuccessRate = ZeroPercent | Percent(successful: nat, total: nat)

  /** "summary". The rejection summaries carry no "success_rate" key. */
  datatype Summary = Summary(total: nat, successful: nat, failed: nat, successRate: Option<SuccessRate>)

  const RejectionSummary := Summary(0, 0, 0, None)

  /** What `call_update` returns, or the uncaught exception it raises. */
  datatype UpdateResponse =
    | UpdateError(error: string, summary: Summary)          // "results" is []
    | UpdateDone(results: seq<UpdateResult>, summary: Summary)
    | Raised(index: nat)                                     // AttributeError at that index

  /** A call's response, with the request bodies posted in call order. */
  datatype UpdateRun = UpdateRun(response: UpdateResponse, sent: seq<Json>)

  /** Line 312: the object id the loop logs and records, or None when the
      chain of `.get` calls raises AttributeError (the payload, its
      "properties" or its "system:objectId" is present but not a dict). The
      handlers at lines 365-408 do not catch that exception. */
  function LoggedObjectId(p: Json): (oid: Option<Json>)
    ensures oid.Some? ==> p.Obj?
    ensures oid.Some? && "properties" !in p.fields ==> oid.value == Str("unknown")
  {
    match p
    case Obj(m) =>
      (match Get(m, "properties", Obj(map[]))
       case Obj(props) =>
         (match Get(props, "system:objectId", Obj(map[]))
          case Obj(sid) => Some(Get(sid, "value", Str("unknown")))
          case _ => None)
       case _ => None)
    case _ => None
  }

  /** Line 312 raises exactly when the payload, a present "properties" entry,
      or a present "system:objectId" entry inside it is not a dict; otherwise
      the id is the "value" of "system:objectId", or "unknown" when either
      level or the "value" itself is missing. */
  lemma LoggedObjectIdCases(p: Json)
    ensures LoggedObjectId(p).None? <==>
              || !p.Obj?
              || ("properties" in p.fields && !p.fields["properties"].Obj?)
              || ("properties" in p.fields && p.fields["properties"].Obj?
                  && "system:objectId" in p.fields["properties"].fields
                  && !p.fields["properties"].fields["system:objectId"].Obj?)
    ensures LoggedObjectId(p).Some? && "properties" in p.fields ==>
              var props := p.fields["properties"].fields;
              LoggedObjectId(p).value
                == if "system:objectId" in props then Get(props["system:objectId"].fields, "value", Str("unknown"))
                   else Str("unknown")
  {
  }

  /** Line 328: the request body wraps the payload in an "objects" list of one. */
  function ApiBody(p: Json): Json {
    Obj(map["objects" := Arr([p])])
  }

  function MissingPropertiesMessage(idx: nat): string {
    "Invalid payload structure at index " + NatToString(idx) + ": missing 'properties'"
  }

  function HttpErrorMessage(status: nat, text: string): string {
    "HTTP error " + NatToString(status) + ": " + Truncate(text, 200)
  }

  /** Line 316: the fixed text around the decimal index; reading the digits
      back gives the index. */
  lemma MissingPropertiesMessageParts(idx: nat)
    ensures var m := MissingPropertiesMessage(idx);
            && |m| == 35 + |NatToString(idx)| + 22
            && m[..35] == "Invalid payload structure at index "
            && m[35..|m| - 22] == NatToString(idx)
            && DigitsValue(m[35..|m| - 22]) == idx
            && m[|m| - 22..] == ": missing 'properties'"
  {
    NatToStringRoundTrip(idx);
  }

  /** The missing-properties message names exactly one index. */
  lemma MissingPropertiesMessageInjective(i: nat, j: nat)
    requires MissingPropertiesMessage(i) == MissingPropertiesMessage(j)
    ensures i == j
  {
    MissingPropertiesMessageParts(i);
    MissingPropertiesMessageParts(j);
  }

  /** Line 366: "HTTP error ", the decimal status, ": ", then the first 200
      characters of the response text. */
  lemma HttpErrorMessageParts(status: nat, text: string)
    ensures var m := HttpErrorMessage(status, text);
            var d := NatToString(status);
            && |m| == 11 + |d| + 2 + |Truncate(text, 200)|
            && m[..11] == "HTTP error "
            && m[11..11 + |d|] == d
            && DigitsValue(m[11..11 + |d|]) == status
            && m[11 + |d|..11 + |d| + 2] == ": "
            && m[11 + |d| + 2..] == Truncate(text, 200)
  {
    NatToStringRoundTrip(status);
  }

  /** The HTTP error message determines the status and the truncated text:
      the digits end where ": " begins. */
  lemma HttpErrorMessageInjective(s1: nat, t1: string, s2: nat, t2: string)
    requires HttpErrorMessage(s1, t1) == HttpErrorMessage(s2, t2)
    ensures s1 == s2 && Truncate(t1, 200) == Truncate(t2, 200)
  {
    HttpErrorDigitsNotShorter(s1, t1, s2, t2);
    HttpErrorDigitsNotShorter(s2, t2, s1, t1);
    HttpErrorMessageParts(s1, t1);
    HttpErrorMessageParts(s2, t2);
    NatToStringInjective(s1, s2);
  }

  /** In equal messages the status digits of one cannot stop early: the
      character after them is ':', which is not a digit. */
  lemma HttpErrorDigitsNotShorter(s1: nat, t1: string, s2: nat, t2: string)
    requires HttpErrorMessage(s1, t1) == HttpErrorMessage(s2, t2)
    ensures |NatToString(s1)| >= |NatToString(s2)|
  {
    var m := HttpErrorMessage(s1, t1);
    var d1, d2 := NatToString(s1), NatToString(s2);
    HttpErrorMessageParts(s1, t1);
    HttpErrorMessageParts(s2, t2);
    assert 11 + |d1| < |m| && !IsDigit(m[11 + |d1|]);
  }

  const TimeoutMessage: string := "Request timeout"

  function RequestErrorMessage(reason: string): string {
    "Request error: " + reason
  }

  /** Lines 334-408: the result recorded for one POST. A body that is not JSON
      raises requests' JSONDecodeError, which is a RequestException. */
  function PostResult(idx: nat, oid: Json, outcome: HttpOutcome): (r: UpdateResult)
    ensures r.index == idx && r.objectId == oid
    ensures r.Succeeded? <==> Decoded(outcome)
    ensures r.Failed? && r.errorStatus.Some? <==> outcome.Response? && RaisesForStatus(outcome.status)
    ensures r.Succeeded? ==> r.statusCode == outcome.status && r.response == outcome.body.json
    ensures r.Failed? && r.errorStatus.Some? ==>
              r.errorStatus.value == outcome.status && r.error == HttpErrorMessage(outcome.status, outcome.text)
    ensures outcome.TimedOut? ==> r == Failed(idx, oid, None, TimeoutMessage)
    ensures outcome.TransportFailure? ==> r == Failed(idx, oid, None, RequestErrorMessage(outcome.reason))
    ensures outcome.Response? && !RaisesForStatus(outcome.status) && outcome.body.Unparsable? ==>
              r == Failed(idx, oid, None, RequestErrorMessage(outcome.body.reason))
  {
    match outcome
    case Response(status, text, body) =>
      if RaisesForStatus(status) then Failed(idx, oid, Some(status), HttpErrorMessage(status, text))
      else (match body
            case Parsed(j) => Succeeded(idx, oid, status, j)
            case Unparsable(reason) => Failed(idx, oid, None, RequestErrorMessage(reason)))
    case TimedOut => Failed(idx, oid, None, TimeoutMessage)
    case TransportFailure(reason) => Failed(idx, oid, None, RequestErrorMessage(reason))
  }

  /** One iteration that did not raise: its result and the body it posted. */
  datatype Attempt = Attempt(result: UpdateResult, posted: Option<Json>)

  /** One iteration of the loop at lines 309-408, or None when it raises. A
      payload without "properties" is recorded as failed without a call. */
  function AttemptAt(idx: nat, p: Json, post: Json -> HttpOutcome): (a: Option<Attempt>)
    ensures a.None? <==> LoggedObjectId(p).None?
    ensures a.Some? ==> a.value.result.index == idx && a.value.result.objectId == LoggedObjectId(p).value
    ensures a.Some? ==> (a.value.posted.Some? <==> "properties" in p.fields)
    ensures a.Some? && a.value.posted.Some? ==>
              && a.value.posted.value == ApiBody(p)
              && a.value.result == PostResult(idx, LoggedObjectId(p).value, post(ApiBody(p)))
    ensures a.Some? && a.value.posted.None? ==> a.value.result == Failed(idx, Str("unknown"), None, MissingPropertiesMessage(idx))
  {
    match LoggedObjectId(p)
    case None => None
    case Some(oid) =>
      if "properties" !in p.fields then Some(Attempt(Failed(idx, oid, None, MissingPropertiesMessage(idx)), None))
      else
        var body := ApiBody(p);
        Some(Attempt(PostResult(idx, oid, post(body)), Some(body)))
  }

  function CountSucceeded(results: seq<UpdateResult>): (n: nat)
    ensures n <= |results|
    decreases |results|
  {
    if results == [] then 0
    else CountSucceeded(results[..|results| - 1]) + (if results[|results| - 1].Succeeded? then 1 else 0)
  }

  /** The loop's state: the results, the two counters, the bodies posted so
      far, and the index at which an exception escaped, if any. */
  datatype Batch = Batch(results: seq<UpdateResult>, successful: nat, failed: nat, sent: seq<Json>, raisedAt: Option<nat>)

  /** Lines 318-319, 354-355 and the other handlers: append the result and
      bump the counter that matches it. */
  function Record(b: Batch, a: Attempt): Batch {
    Batch(b.results + [a.result],
          if a.result.Succeeded? then b.successful + 1 else b.successful,
          if a.result.Succeeded? then b.failed else b.failed + 1,
          b.sent + (match a.posted case None => [] case Some(body) => [body]),
          None)
  }

  /** The loop at lines 309-408 given what each iteration does, in order: it
      records every attempt and stops at the first iteration that raises. */
  function Fold(atts: seq<Option<Attempt>>): (b: Batch)
    ensures b.raisedAt.None? ==> |b.results| == |atts|
    ensures b.raisedAt.Some? ==> b.raisedAt.value == |b.results| < |atts| && atts[b.raisedAt.value].None?
    ensures b.successful + b.failed == |b.results|
    ensures |b.sent| <= |b.results|
    decreases |atts|
  {
    if atts == [] then Batch([], 0, 0, [], None)
    else
      var n := |atts| - 1;
      var prior := Fold(atts[..n]);
      if prior.raisedAt.Some? then prior
      else match atts[n]
        case None => prior.(raisedAt := Some(n))
        case Some(a) => Record(prior, a)
  }

  /** The success counter counts the successful results. */
  lemma {:induction false} FoldCounts(atts: seq<Option<Attempt>>)
    ensures Fold(atts).successful == CountSucceeded(Fold(atts).results)
    decreases |atts|
  {
    if atts != [] {
      var n := |atts| - 1;
      FoldCounts(atts[..n]);
      var prior := Fold(atts[..n]);
      var b := Fold(atts);
      if prior.raisedAt.None? && atts[n].Some? {
        assert b.results[..|b.results| - 1] == prior.results;
      }
    }
  }

  /** Every recorded result is the result of its own iteration. */
  lemma {:induction false} FoldResults(atts: seq<Option<Attempt>>)
    ensures var b := Fold(atts);
            forall k :: 0 <= k < |b.results| ==> atts[k].Some? && b.results[k] == atts[k].value.result
    decreases |atts|
  {
    if atts != [] {
      var n := |atts| - 1;
      FoldResults(atts[..n]);
      assert forall k :: 0 <= k < n ==> atts[..n][k] == atts[k];
    }
  }

  /** One more iteration extends the fold by exactly that iteration. */
  lemma FoldStep(atts: seq<Option<Attempt>>, i: nat)
    requires i < |atts|
    ensures var prior := Fold(atts[..i]);
            Fold(atts[..i + 1])
              == if prior.raisedAt.Some? then prior
                 else match atts[i]
                   case None => prior.(raisedAt := Some(i))
                   case Some(a) => Record(prior, a)
  {
    assert atts[..i + 1][..i] == atts[..i];
  }

  /** Once an iteration has raised, later iterations are never looked at. */
  lemma {:induction false} FoldRaisedIsFinal(atts: seq<Option<Attempt>>, n: nat)
    requires n <= |atts| && Fold(atts[..n]).raisedAt.Some?
    ensures Fold(atts) == Fold(atts[..n])
    decreases |atts| - n
  {
    if n == |atts| {
      assert atts[..n] == atts;
    } else {
      FoldStep(atts, n);
      FoldRaisedIsFinal(atts, n + 1);
    }
  }

  /** What the iteration at each index does. */
  function Attempts(ps: seq<Json>, post: Json -> HttpOutcome): (atts: seq<Option<Attempt>>)
    ensures |atts| == |ps|
    ensures forall k :: 0 <= k < |ps| ==> atts[k] == AttemptAt(k, ps[k], post)
    decreases |ps|
  {
    if ps == [] then []
    else
      var n := |ps| - 1;
      var prior := Attempts(ps[..n], post);
      assert forall k :: 0 <= k < n ==> ps[..n][k] == ps[k];
      prior + [AttemptAt(n, ps[n], post)]
  }

  /** The iterations over a prefix of the payloads are a prefix of the
      iterations. */
  lemma AttemptsPrefix(ps: seq<Json>, n: nat, post: Json -> HttpOutcome)
    requires n <= |ps|
    ensures Attempts(ps[..n], post) == Attempts(ps, post)[..n]
  {
    assert forall k :: 0 <= k < n ==> ps[..n][k] == ps[k];
  }

  /** The loop at lines 309-408 over the payloads, in order; it stops at the
      first payload whose iteration raises. */
  function RunBatch(ps: seq<Json>, post: Json -> HttpOutcome): (b: Batch)
    ensures b.raisedAt.None? ==> |b.results| == |ps|
    ensures b.raisedAt.Some? ==> b.raisedAt.value == |b.results| < |ps| && LoggedObjectId(ps[b.raisedAt.value]).None?
    ensures forall k :: 0 <= k < |b.results| ==> b.results[k].index == k && LoggedObjectId(ps[k]).Some?
    ensures b.successful + b.failed == |b.results|
    ensures b.successful == CountSucceeded(b.results)
    ensures |b.sent| <= |b.results|
  {
    BatchFacts(ps, post);
    Fold(Attempts(ps, post))
  }

  /** The loop's facts over the payloads: each result sits at its own index
      and belongs to a payload whose id can be read, and a raise is at the
      first payload whose id cannot. */
  lemma BatchFacts(ps: seq<Json>, post: Json -> HttpOutcome)
    ensures var b := Fold(Attempts(ps, post));
            && (b.raisedAt.Some? ==> LoggedObjectId(ps[b.raisedAt.value]).None?)
            && (forall k :: 0 <= k < |b.results| ==> b.results[k].index == k && LoggedObjectId(ps[k]).Some?)
            && b.successful == CountSucceeded(b.results)
  {
    var atts := Attempts(ps, post);
    var b := Fold(atts);
    FoldResults(atts);
    FoldCounts(atts);
    forall k | 0 <= k < |b.results|
      ensures b.results[k].index == k && LoggedObjectId(ps[k]).Some?
    {
      assert atts[k] == AttemptAt(k, ps[k], post);
    }
  }

  /** One more payload extends the loop by exactly one iteration: nothing, once
      an earlier one raised; otherwise the raise, or the recorded attempt. */
  lemma BatchStep(ps: seq<Json>, i: nat, post: Json -> HttpOutcome)
    requires i < |ps|
    ensures var prior := RunBatch(ps[..i], post);
            RunBatch(ps[..i + 1], post)
              == if prior.raisedAt.Some? then prior
                 else match AttemptAt(i, ps[i], post)
                   case None => prior.(raisedAt := Some(i))
                   case Some(a) => Record(prior, a)
  {
    AttemptsPrefix(ps, i, post);
    AttemptsPrefix(ps, i + 1, post);
    FoldStep(Attempts(ps, post), i);
  }

  /** `call_update(update_payloads)` against a backend whose POST of one
      request body ends in `post(body)`. */
  function CallUpdate(payloads: Json, post: Json -> HttpOutcome): (run: UpdateRun)
    ensures !Truthy(payloads) ==> run == UpdateRun(UpdateError("No payloads provided", RejectionSummary), [])
    ensures Truthy(payloads) && !payloads.Arr? ==> run == UpdateRun(UpdateError("Invalid payload format", RejectionSummary), [])
    ensures run.response.UpdateDone? ==>
              && payloads.Arr?
              && var n := |payloads.items|;
                 var r := run.response;
                 && n > 0
                 && |r.results| == n == r.summary.total
                 && r.summary.successful + r.summary.failed == n
                 && r.summary.successful == CountSucceeded(r.results)
                 && (forall k :: 0 <= k < n ==> r.results[k].index == k)
                 && r.summary.successRate == Some(Percent(r.summary.successful, n))
    ensures run.response.Raised? ==>
              && payloads.Arr?
              && run.response.index < |payloads.items|
              && LoggedObjectId(payloads.items[run.response.index]).None?
    ensures payloads.Arr? && (forall k :: 0 <= k < |payloads.items| ==> LoggedObjectId(payloads.items[k]).Some?) ==>
              !run.response.Raised?
  {
    if !Truthy(payloads) then UpdateRun(UpdateError("No payloads provided", RejectionSummary), [])
    else if !payloads.Arr? then UpdateRun(UpdateError("Invalid payload format", RejectionSummary), [])
    else
      var ps := payloads.items;
      var b := RunBatch(ps, post);
      match b.raisedAt
      case Some(i) => UpdateRun(Raised(i), b.sent)
      case None =>
        var rate := if |ps| > 0 then Percent(b.successful, |ps|) else ZeroPercent;
        UpdateRun(UpdateDone(b.results, Summary(|ps|, b.successful, b.failed, Some(rate))), b.sent)
  }

  /** The request bodies a batch without exceptions posts: one per payload
      that has "properties", in order. */
  function PostedBodies(ps: seq<Json>): seq<Json>
    decreases |ps|
  {
    if ps == [] then []
    else
      var p := ps[|ps| - 1];
      PostedBodies(ps[..|ps| - 1]) + (if p.Obj? && "properties" in p.fields then [ApiBody(p)] else [])
  }

  /** A non-empty list of payloads none of which raises completes, with the
      loop's results and posts. */
  lemma CompletedBatch(ps: seq<Json>, post: Json -> HttpOutcome)
    requires ps != []
    requires forall k :: 0 <= k < |ps| ==> LoggedObjectId(ps[k]).Some?
    ensures var run := CallUpdate(Arr(ps), post);
            var b := RunBatch(ps, post);
            && b.raisedAt.None?
            && run.response.UpdateDone?
            && run.response.results == b.results
            && run.sent == b.sent
  {
    var b := RunBatch(ps, post);
    if b.raisedAt.Some? {
      assert false;
    }
    assert Truthy(Arr(ps));
    var rate := Percent(b.successful, |ps|);
    assert CallUpdate(Arr(ps), post) == UpdateRun(UpdateDone(b.results, Summary(|ps|, b.successful, b.failed, Some(rate))), b.sent);
  }

  lemma RaisedIsFinal(ps: seq<Json>, n: nat, post: Json -> HttpOutcome)
    requires n <= |ps|
    ensures RunBatch(ps[..n], post).raisedAt.Some? ==> RunBatch(ps, post) == RunBatch(ps[..n], post)
  {
    AttemptsPrefix(ps, n, post);
    if RunBatch(ps[..n], post).raisedAt.Some? {
      FoldRaisedIsFinal(Attempts(ps, post), n);
    }
  }

  lemma ResultsIndependent(ps: seq<Json>, post: Json -> HttpOutcome)
    ensures var b := RunBatch(ps, post);
            forall k :: 0 <= k < |b.results| ==>
              AttemptAt(k, ps[k], post).Some? && b.results[k] == AttemptAt(k, ps[k], post).value.result
  {
    FoldResults(Attempts(ps, post));
  }

  /** Given the backend's answer to each request body, replacing one payload by
      another that does not raise leaves every other index's result unchanged:
      one object's failure cannot affect another's. */
  lemma ReplacingOnePayload(ps: seq<Json>, j: nat, q: Json, post: Json -> HttpOutcome)
    requires j < |ps|
    requires forall k :: 0 <= k < |ps| ==> LoggedObjectId(ps[k]).Some?
    requires LoggedObjectId(q).Some?
    ensures var b := RunBatch(ps, post);
            var b' := RunBatch(ps[j := q], post);
            && |b.results| == |b'.results| == |ps|
            && forall k :: 0 <= k < |ps| && k != j ==> b'.results[k] == b.results[k]
  {
    var ps' := ps[j := q];
    assert forall k :: 0 <= k < |ps'| ==> LoggedObjectId(ps'[k]).Some?;
    var b := RunBatch(ps, post);
    var b' := RunBatch(ps', post);
    assert |b.results| == |ps|;
    assert |b'.results| == |ps|;
    ResultsIndependent(ps, post);
    ResultsIndependent(ps', post);
    forall k | 0 <= k < |ps| && k != j
      ensures b'.results[k] == b.results[k]
    {
      assert ps'[k] == ps[k];
    }
  }

  /** A payload without "properties" is recorded as failed at its own index,
      with the logged id "unknown". That no call is made for it is what
      `SentExactlyPosted` and `PostedBodies` establish. */
  lemma MissingPropertiesRecorded(ps: seq<Json>, j: nat, post: Json -> HttpOutcome)
    requires j < |RunBatch(ps, post).results|
    requires ps[j].Obj? && "properties" !in ps[j].fields
    ensures RunBatch(ps, post).results[j] == Failed(j, Str("unknown"), None, MissingPropertiesMessage(j))
  {
    ResultsIndependent(ps, post);
  }

  /** Exactly one POST per payload that has "properties", in input order, each
      wrapping that payload; none for the others. */
  lemma {:induction false} SentExactlyPosted(ps: seq<Json>, post: Json -> HttpOutcome)
    requires RunBatch(ps, post).raisedAt.None?
    ensures RunBatch(ps, post).sent == PostedBodies(ps)
    decreases |ps|
  {
    if ps != [] {
      var n := |ps| - 1;
      RaisedIsFinal(ps, n, post);
      BatchStep(ps, n, post);
      assert ps[..n + 1] == ps;
      SentExactlyPosted(ps[..n], post);
    }
  }

  /** One pass of the loop body: the source's counters and lists after
      payload p at index idx, or `raised` when that iteration raises. */
  method VisitPayload(idx: nat, p: Json, post: Json -> HttpOutcome,
                      results: seq<UpdateResult>, successful: nat, failed: nat, sent: seq<Json>)
    returns (raised: bool, results': seq<UpdateResult>, successful': nat, failed': nat, sent': seq<Json>)
    ensures raised <==> AttemptAt(idx, p, post).None?
    ensures raised ==> sent' == sent
    ensures !raised ==> Batch(results', successful', failed', sent', None)
                        == Record(Batch(results, successful, failed, sent, None), AttemptAt(idx, p, post).value)
  {
    results', successful', failed', sent' := results, successful, failed, sent;
    var oid := LoggedObjectId(p);
    if oid.None? {
      return true, results', successful', failed', sent';
    }
    raised := false;
    if "properties" !in p.fields {
      failed' := failed + 1;
      results' := results + [Failed(idx, oid.value, None, MissingPropertiesMessage(idx))];
      assert sent == sent + [];
      return;
    }
    var body := ApiBody(p);
    sent' := sent + [body];
    var r := PostResult(idx, oid.value, post(body));
    if r.Succeeded? {
      successful' := successful + 1;
    } else {
      failed' := failed + 1;
    }
    results' := results + [r];
  }

  /** `call_update` as the source writes it: a counting loop over the
      payloads that appends one result per index. */
  method CallUpdateLoop(payloads: Json, post: Json -> HttpOutcome) returns (run: UpdateRun)
    ensures run == CallUpdate(payloads, post)
  {
    if !Truthy(payloads) {
      return UpdateRun(UpdateError("No payloads provided", RejectionSummary), []);
    }
    if !payloads.Arr? {
      return UpdateRun(UpdateError("Invalid payload format", RejectionSummary), []);
    }
    var ps := payloads.items;
    var results: seq<UpdateResult> := [];
    var successful: nat := 0;
    var failed: nat := 0;
    var sent: seq<Json> := [];
    var idx := 0;
    while idx < |ps|
      invariant 0 <= idx <= |ps|
      invariant RunBatch(ps[..idx], post) == Batch(results, successful, failed, sent, None)
    {
      BatchStep(ps, idx, post);
      var raised;
      raised, results, successful, failed, sent := VisitPayload(idx, ps[idx], post, results, successful, failed, sent);
      if raised {
        RaisedIsFinal(ps, idx + 1, post);
        return UpdateRun(Raised(idx), sent);
      }
      idx := idx + 1;
    }
    assert ps[..idx] == ps;
    var rate := if |ps| > 0 then Percent(successful, |ps|) else ZeroPercent;
    return UpdateRun(UpdateDone(results, Summary(|ps|, successful, failed, Some(rate))), sent);
  }
}
